=== FILE: README.md ===
# Career-assessment scoring pipeline, modelled in Dafny

This project models the deterministic core of the `/analyze` endpoint in `new_api1.py`.
That endpoint scores a career-psychology questionnaire across the five dimensions
R, E, A, D and Y. It then asks a text-generation service for a narrative report and
overwrites the report's scores with the scores it computed itself.

The model covers these stages, one module each:

- `Extraction` (`call_ai_model`, lines 79-101):
  - picks the interior of the first ```` ```json ```` block, or else the whole reply;
  - removes trailing commas before `}` and `]`, one regex pass each;
  - parses the text, with `json.loads` as a parameter;
  - adds the flat `dimension_scores` view of a `dimensions` object.
- `Questions` (lines 121-170): fills in default ids, types, option keys and option scores, then files every answered question as objective or subjective.
- `Objective` (lines 177-195): resolves the chosen option and sums the chosen scores per dimension.
- `Subjective` (lines 202-297):
  - fans each free-text answer out to every dimension it names;
  - makes one service call per populated dimension;
  - copies a returned `score` uncorrected, or falls back to a record scoring 2.
- `Reconciliation` (lines 299-306 and 394-406):
  - adds objective and subjective scores;
  - overwrites every recognised `dimensions[d].score` of the report with the total;
  - attaches the score maps and the subjective analysis.
- `Logging` (lines 415-431): decides whether printing the subjective analysis records raises. Two of those prints fail on values of the wrong JSON type.
- `Pipeline` (lines 113-452): runs the stages in the endpoint's order and wraps the outcome in the `{code, message, data}` envelope.

Supporting modules:

- `Results` defines `Option` and `Result`.
- `JsonValues` defines parsed JSON values. It also models two Python operations the code applies to them without checking their type:
  - `key in v` followed by `v[key]`;
  - `0 + v`.
- `Dimensions` defines the dimension type and five-key maps.
- `Text` defines Python's `\s` and `str(n)` for counters.

The text-generation service is not called. Its replies are inputs:

- `Service` holds one `Reply` per dimension prompt and one for the report prompt.
- `Pipeline.Calls` turns those replies into the `Outcomes` that `call_ai_model` returns or raises.
- The pipeline theorems are stated over arbitrary `Outcomes`, so they hold for every possible behaviour of the service.
- `Pipeline.Analyze` is `Respond(Run(Pairs(req), out))`. The pipeline theorems are stated over arbitrary classified pairs, so they hold for every request.

Four behaviours of the code that are easy to miss:

- **A subjective reply that is not a JSON object falls back to score 2.** Every such reply raises somewhere inside the `try` at lines 283-289, and the `except` at line 290 catches it. A number, boolean or null reply raises at line 93, in `"dimensions" in data`, before `call_ai_model` returns. A list or string reply that holds "dimensions" raises at line 95, in `data["dimensions"]`, also inside `call_ai_model`. Any other list or string reply raises at line 288 (`subj_result["score"]`) if it holds "score", and at line 289 (`subj_result.get(...)`) if not.
- **A subjective score that Python cannot add to an integer makes the whole request a 500.** Such a score is a string, list, object or null; line 302 raises `TypeError`. Booleans add as 0 and 1.
- **An answered objective question with a list-valued `dimension` also makes the request a 500.** The test `dimension in objective_scores` on line 194 raises for a list.
- **Printing the results can turn a finished analysis into a 500.** The prints at lines 419-431 sit inside the outer `try`, after the result has been stored at line 409. Line 425 slices a truthy `analysis` that is neither text nor a list, and line 427 joins a `key_traits` list whose first three items are not all text; both raise.

## Model

| member | source | states |
|---|---|---|
| JsonValues.Probe | new_api1.py:93-97 | `key in v` then `v[key]` yields the field exactly when `v` is an object holding `key`; it never raises on an object and always raises on a number, boolean or null |
| Dimensions.ParseDim | new_api1.py:191-194 | a text is recognised as a dimension exactly when it is one of the five keys, and then it names that dimension |
| Dimensions.Zeros | new_api1.py:191 | the initial score map holds all five dimensions, each at 0 |
| Text.NatToStringInjective | new_api1.py:123 | the generated defaults `str(i + 1)` of two counters are equal exactly when the counters are |
| Extraction.FindClose | new_api1.py:79 | the lazy group ends at the first position after which whitespace and a closing fence follow, and no earlier one qualifies |
| Extraction.MatchAt | new_api1.py:79 | a match at a position opens with ```` ```json ````; its group starts after the whitespace run and ends at the first place a closing fence can follow; when the opening is there but no match is, no closing fence follows the whitespace run anywhere |
| Extraction.FirstMatch | new_api1.py:79 | `re.search` finds the leftmost position where the fence pattern matches; no earlier position matches |
| Extraction.Candidate | new_api1.py:79-83 | without a complete fenced block the candidate is the whole text; with one it is the group of the leftmost match (no earlier position matches), trimmed and holding no closing fence |
| Extraction.FencedMatchesUnfenced | new_api1.py:79-83 | a payload inside a ```` ```json ```` block (after backtick-free prose, with any surrounding whitespace and trailing text) gives the same candidate as the bare payload |
| Extraction.UnfencedPayload | new_api1.py:79-83 | a text without a closing fence is its own candidate |
| Extraction.StripTrailingCommas | new_api1.py:86-87 | one substitution pass never lengthens the text; its full behaviour is stated by the two lemmas below |
| Extraction.StripFirstMatch | new_api1.py:86-87 | the leftmost comma whose whitespace run ends at the bracket is the one replaced: the text before it is kept, the comma and run are dropped, and the rest is processed on its own |
| Extraction.StripChangesOnlyMatches | new_api1.py:86-87 | one substitution pass leaves a text unchanged exactly when it has no comma followed by whitespace and the bracket; otherwise it shortens the text |
| Extraction.StripKeepsSqueeze | new_api1.py:86-87 | one substitution pass removes only commas and whitespace: every other character, brackets included, survives in order |
| Extraction.Repair | new_api1.py:86-87 | the repair never lengthens the text and removes only commas and whitespace; it is the identity exactly when there is no trailing comma before `}` or `]` |
| Extraction.RepairExample | new_api1.py:86 | `{"score": 3,}` is repaired to `{"score": 3}` |
| Extraction.RepairNotIdempotent | new_api1.py:86-87 | the repair is a single pass: `,,}` becomes `,}`, which a second repair would change again |
| Extraction.DeriveDimensionScores | new_api1.py:93-98 | a value with a `dimensions` object gains `dimension_scores` holding exactly the entries that carry a score, each with that score, and keeps its other fields; a value without `dimensions` passes unchanged; it raises exactly on a non-object `dimensions` or an entry that cannot be probed |
| Extraction.CallModel | new_api1.py:79-101 | an unavailable service raises its reason; a reply the parser rejects raises the parse error; otherwise the parsed value goes through the `dimension_scores` step |
| Extraction.FencedReplyMatchesUnfenced | new_api1.py:79-101 | a fenced reply and its bare payload give the same outcome, whatever the parser |
| Extraction.TrailingCommaReplyParses | new_api1.py:79-101 | a reply `{"score": 3,}` succeeds with score 3 under any parser that reads `{"score": 3}` that way |
| Questions.FormatOptions | new_api1.py:129-134 | one normalised option per submitted option, in order; each keeps its submitted key, content and score, and defaults them to `str(j + 1)`, empty text and 0 |
| Questions.FormatQuestion | new_api1.py:122-143 | the submitted id, type, stem, dimension and standard are kept, and default to `str(i + 1)`, single choice, empty text, empty text and empty text; only a single-choice question with submitted options has options, and then exactly its normalised options |
| Questions.FormatQuestions | new_api1.py:121-143 | one normalised question per submitted question, in order |
| Questions.DefaultIdsDistinct | new_api1.py:123 | two questions that both lack an id get different default ids |
| Questions.FileQuestion | new_api1.py:150-170 | an unanswered question yields no pair; an answered one yields exactly one, carrying the question's stem, dimension, standard, type and answer, filed by the three subjective types, and an objective pair also carries the options |
| Questions.Classify | new_api1.py:149-170 | exactly the answered questions become pairs: the number of pairs equals the number of answered questions |
| Questions.ClassifyByType | new_api1.py:164-170 | every objective pair has a non-subjective type and every subjective pair has one of the three subjective types |
| Questions.ClassifyConcat | new_api1.py:149-170 | each question is filed independently and relative order is kept: classifying a concatenation concatenates the classifications |
| Objective.ResolveChoice | new_api1.py:177-188 | the choice is absent exactly when no option key equals the answer; otherwise it records the first matching option's content and score |
| Objective.ResolveFirst | new_api1.py:179-188 | when the first option whose key equals the answer is at a given position, the choice records that option's content and score |
| Objective.DefaultKeysResolve | new_api1.py:177-188 | when every option key is left to its default, the answer `str(j + 1)` resolves to option `j` |
| Objective.Accumulate | new_api1.py:192-195 | the running loop fails exactly on a list-valued dimension and otherwise adds to each dimension the reference sum of chosen scores over the pairs naming it |
| Objective.ObjectiveScores | new_api1.py:190-195 | all five keys are present and each is the sum of the chosen scores of the pairs naming that dimension; unmatched answers and unrecognised dimensions add nothing; it fails exactly on a list-valued dimension |
| Objective.SingleChoiceExample | new_api1.py:177-195 | one answered question on R with option "2" worth 4 gives objective scores R=4 and 0 elsewhere |
| Subjective.RecognisedDims | new_api1.py:218-222 | the recognised dimensions of a list: each dimension appears as many times as its key does in the list |
| Subjective.DimsOf | new_api1.py:213-226 | an answer is filed under each dimension as many times as its `dimension` value names it; empty and unrecognised values name nothing |
| Subjective.AddCopiesSpec | new_api1.py:229-234 | filing one answer appends to each dimension one copy per mention and changes nothing else |
| Subjective.GroupFrom | new_api1.py:212-234 | the loop appends, for every dimension, exactly the reference list of copies in input order after what it already held |
| Subjective.Group | new_api1.py:209-234 | every dimension receives one copy of each answer per mention, in input order; a dimension no answer names stays empty |
| Subjective.NonEmptyAmong | new_api1.py:237 | the kept dimensions are exactly those of the list whose responses are non-empty |
| Subjective.ActiveDims | new_api1.py:205-249 | a dimension gets a scoring call exactly when it has at least one response, and there are at most five calls |
| Subjective.ResponsesWhenMentioned | new_api1.py:212-237 | a dimension has responses exactly when some subjective answer names it |
| Subjective.ActiveWhenMentioned | new_api1.py:212-249 | a dimension is scored exactly when some subjective answer names it |
| Subjective.InitialState | new_api1.py:201-202 | scoring starts from no analysis records and all five subjective scores present and 0 |
| Subjective.ScoreOne | new_api1.py:282-297 | a reply object becomes the record and its `score` is taken uncorrected; a failure or a non-object reply becomes the fallback record, with exactly the fields `analysis` (the failure prefix and the failure's text), `score` 2 and empty `key_traits`, and score 2 |
| Subjective.ScoreFrom | new_api1.py:282-297 | after the loop every visited dimension holds its own call's record and, when that call wrote one, its score; every other entry is left as it was |
| Subjective.ScoreSubjective | new_api1.py:202-297 | records exist for exactly the scored dimensions; each holds its own call's record and score; every other dimension keeps score 0 |
| Subjective.FailureIsolated | new_api1.py:282-297 | a dimension's record and score depend on that dimension's call alone |
| Subjective.ReplyScoreCopied | new_api1.py:284-288 | a reply object is stored as is; its `score`, when present, becomes the dimension's score unchanged, and otherwise the score stays 0 |
| Subjective.FailedCallScoresTwo | new_api1.py:290-297 | a scored dimension whose call fails gets score 2 and a record whose score is 2 |
| Subjective.NoAnswersAllZero | new_api1.py:202-205 | with no subjective answers nothing is analysed and every subjective score is 0, whatever the service does |
| Reconciliation.Totals | new_api1.py:299-302 | totals exist exactly when every subjective score can be added to an integer; then each of the five totals is objective plus subjective |
| Reconciliation.DimObjectFields | new_api1.py:396 | a per-dimension map becomes an object with exactly one field per dimension of the map, named by its key and holding its value |
| Reconciliation.IntObjectFields | new_api1.py:395-397 | an integer score map becomes an object with exactly one integer field per dimension |
| Reconciliation.OverwriteScores | new_api1.py:399-403 | every recognised entry of `dimensions` has its score replaced by its total and keeps its other fields; unrecognised entries are untouched; no entry is added or removed |
| Reconciliation.Attach | new_api1.py:394-406 | the three score maps and the analysis are attached under their names, replacing what the report had there; every other field is kept |
| Reconciliation.ReconcileFields | new_api1.py:394-406 | the reconciled report holds the attached values, scores every recognised `dimensions` entry with its total, and keeps everything else |
| Reconciliation.Reconcile | new_api1.py:394-406 | reconciliation fails exactly when the report is not an object, or its `dimensions` is not an object, or a recognised entry is not an object; on success the report's keys are its own plus the four attached names |
| Reconciliation.ReconciledReport | new_api1.py:394-406 | a reconciled report carries the computed maps under the attached names, keeps every other field, and changes only recognised entries' scores in `dimensions` |
| Reconciliation.ReconciledDimension | new_api1.py:395-403 | a reconciled report never shows an unreconciled score: for each dimension its objective, subjective and total values appear, and any `dimensions` entry scores the total |
| Reconciliation.OverwriteShown | new_api1.py:399-403 | overwriting entries that already show their totals changes nothing |
| Reconciliation.ReconciledEntriesShowTotals | new_api1.py:399-403 | a reconciled report can be reconciled again, and each of its recognised entries scores its total |
| Reconciliation.ReconcileIdempotent | new_api1.py:394-406 | reconciling a reconciled report again with the same scores returns it unchanged |
| Logging.RecordPrintsExactly | new_api1.py:421-431 | a record prints unless its `analysis` is truthy and neither text nor a list, or its `key_traits` is a list with a non-text item among its first three; nothing else can make it raise |
| Logging.ScoreOnePrints | new_api1.py:282-431 | the fallback record always prints; a reply object prints exactly when the service's own object does |
| Logging.FailureKeepsLoggable | new_api1.py:282-431 | replacing one dimension's call with a failure keeps every subjective score addable and every record printable |
| Logging.NumericTraitRaises | new_api1.py:427 | a record scoring 3 whose `key_traits` is `[1]` raises while it is printed |
| Logging.NumericAnalysisRaises | new_api1.py:425 | a record whose `analysis` is 7 raises while it is printed |
| Logging.LaterTraitAndZeroAnalysisPrint | new_api1.py:425-427 | an `analysis` of 0 is not sliced and only the first three traits are joined, so a non-text fourth trait prints |
| Pipeline.Calls | new_api1.py:62-108 | a prompt the service could not answer makes its call raise that reason, for the report and for each dimension |
| Pipeline.Pairs | new_api1.py:121-170 | one pair per answered question, each objective pair of a non-subjective type and each subjective pair of a subjective type |
| Pipeline.Run | new_api1.py:177-431 | the run succeeds exactly when no objective dimension is a list, every subjective score can be added, the report call succeeded with an object whose `dimensions` reconciles, and every analysis record prints; a success has objective scores and totals, and a failed report call is never a success |
| Pipeline.Respond | new_api1.py:439-452 | code 200 exactly when the run succeeded, and then the data is the report and the message is the success message; otherwise code 500, null data, and the failure prefix followed by the failure's text |
| Pipeline.Analyze | new_api1.py:113-452 | the envelope is 200 with the success message and data, or 500 with a message starting with the failure prefix and null data |
| Pipeline.ReportFailureIs500 | new_api1.py:392-452 | a failed report call gives 500 with null data; when earlier stages succeeded, the message names that call's failure |
| Pipeline.RunShowsDimension | new_api1.py:395-403 | a successful run's report shows, per dimension, the objective, subjective and total scores it computed |
| Pipeline.RunShowsAnalysis | new_api1.py:406 | a successful run's report carries the subjective analysis records it computed |
| Pipeline.SuccessShowsTotals | new_api1.py:190-443 | on a successful run, each objective score is the sum over objective answers, each total adds the subjective score to it, and the data shows all three and scores every recognised `dimensions` entry with the total |
| Pipeline.NoSubjectiveAnswers | new_api1.py:202-302 | on a successful run without subjective answers, nothing is analysed, each subjective score is 0, each total is the objective sum, and the data's analysis is an empty object |
| Pipeline.NoSubjectiveAnswersNoCalls | new_api1.py:202-205 | without subjective answers the response does not depend on any subjective call |
| Pipeline.FailedDimensionFallsBack | new_api1.py:290-302 | on a successful run, a dimension named by an answer whose call failed has subjective score 2, total equal to objective plus 2, and an analysis record scoring 2 |
| Pipeline.DimensionIsolated | new_api1.py:282-297 | one dimension's call outcome alone decides that dimension's subjective score and record |
| Pipeline.UnprintableRecordIs500 | new_api1.py:409-452 | a record that cannot be printed gives 500 with null data even though the result was stored; when earlier stages succeeded, the message names the type error |
| Pipeline.NumericTraitReplyIs500 | new_api1.py:282-452 | a scored dimension whose reply has a number among its first traits fails the request, whatever the other replies and the report are |
| Pipeline.FailedCallKeepsSuccess | new_api1.py:290-431 | a failed subjective call never turns a successful run into a failure |

## Left out

- FastAPI, uvicorn, CORS and routing (lines 1-30, 111, 455-469) are framework plumbing.
- The OpenAI client, its timeout and the `choices` check (lines 55-77, 102-103) are not modelled. A missing completion or a completion without content, like a transport error or timeout, is the `Unavailable` reply.
- `json.loads` (line 90) is a parameter of the model (`Parser`). The model does not say which texts it accepts.
- Prompt construction (lines 251-280, 309-389) is fixed prose with no behaviour to verify.
- The text of every `print` is left out, including the loop at lines 241-244 that only warns when a dimension does not have exactly one question. Two kinds of print can raise, and the model covers both:
  - The print at line 289 raises for a list or string reply without "score". It is inside the per-dimension `try`, so `Subjective.ScoreOne`'s fallback covers it.
  - The prints at lines 425 and 427 can raise; `Logging` decides when.
  - The print at line 76 takes `len(content)`, which raises when the completion carries no content (`None`). That raise is inside `call_ai_model`'s `try`, and the model counts it as the `Unavailable` reply.
  - Every other print only formats values, or takes `len()` of a value that is always a list or string, so it cannot raise.
- The process-wide `analysis_results` log and its `time.time()` timestamp (lines 33, 409-413) are mutable global state and the clock. One entry is appended for every request that reaches line 409, with username defaulting to "unknown". That includes a request whose printing then raises and is answered 500.
- `user_info` feeds only the report prompt and the log, so the request does not carry it.
- JSON floats are not modelled. Scores are integers or other JSON values; a float subjective score would add like a number in Python.
- Question ids, answers and option keys are strings, and option scores are integers. Python's `str()` of a non-string id on line 150, and other types for these fields, are not modelled.
- JSON objects are maps, so key order is not modelled. This matters only for the order of fields in the response.
- Python's exception text for a value of the wrong type is not reproduced. Every such raise is the one failure `ShapeMismatch`, with a fixed description in the 500 message.
- Extraction.StripTrailingCommas: its own contract gives only the length bound, because a stronger one slows every proof that unfolds it. What it removes and keeps is stated by `Extraction.StripChangesOnlyMatches`, `Extraction.StripFirstMatch` and `Extraction.StripKeepsSqueeze`.
- Pipeline.Calls: states only the unavailable-service case. The completed-reply case is `Extraction.CallModel`'s contract.

=== FILE: dims.dfy ===
/** The closed set of assessment dimensions and per-dimension score maps. */
module Dimensions {
  import opened Results

  datatype Dim = R | E | A | D | Y

  /** The order in which `analyze_data` writes its five-key dicts and visits dimensions. */
  const AllDims: seq<Dim> := [R, E, A, D, Y]

  /** The dict key under which a dimension appears in requests and reports. */
  function Key(d: Dim): string {
    match d
    case R => "R"
    case E => "E"
    case A => "A"
    case D => "D"
    case Y => "Y"
  }

  /** `s in {"R": ..., ..., "Y": ...}`: the dimension a text names, if it names one. */
  function ParseDim(s: string): (r: Option<Dim>)
    ensures r.Some? ==> Key(r.value) == s
    ensures r.None? ==> forall d: Dim :: Key(d) != s
  {
    if s == "R" then Some(R)
    else if s == "E" then Some(E)
    else if s == "A" then Some(A)
    else if s == "D" then Some(D)
    else if s == "Y" then Some(Y)
    else None
  }

  lemma KeyInjective(d1: Dim, d2: Dim)
    ensures Key(d1) == Key(d2) ==> d1 == d2
  {
  }

  /** Every dimension is one of the five constructors. */
  lemma OneOfFive(d: Dim)
    ensures d == R || d == E || d == A || d == D || d == Y
  {
  }

  /** A map holding every one of the five dimensions. */
  predicate Total<V>(m: map<Dim, V>) {
    forall d: Dim :: d in m
  }

  /** `analyze_data`'s `{"R": 0, "E": 0, "A": 0, "D": 0, "Y": 0}`. */
  function Zeros(): (m: map<Dim, int>)
    ensures Total(m)
    ensures forall d :: m[d] == 0
  {
    var m := map[R := 0, E := 0, A := 0, D := 0, Y := 0];
    assert Total(m) by { forall d: Dim ensures d in m { OneOfFive(d); } }
    m
  }
}

=== FILE: extract.dfy ===
/**
 * Extraction of a structured reply from the text-generation service's completion
 * (`call_ai_model`): pick the first ```json fenced block or the whole text, strip
 * trailing commas before `}` and `]`, parse, and add the flat `dimension_scores`
 * view of a `dimensions` object. The JSON parser itself is a parameter.
 */
module Extraction {
  import opened Results
  import opened JsonValues
  import opened Text

  const OpenFence: string := "```json"
  const CloseFence: string := "```"

  /** The end of the (maximal) whitespace run that starts at `j`. */
  function SkipSpaces(t: string, j: nat): (m: nat)
    requires j <= |t|
    ensures j <= m <= |t|
    ensures forall k :: j <= k < m ==> IsSpace(t[k])
    ensures m < |t| ==> !IsSpace(t[m])
    decreases |t| - j
  {
    if j < |t| && IsSpace(t[j]) then SkipSpaces(t, j + 1) else j
  }

  /** A whitespace run from `j` to `m` that ends at a non-space (or the end) is the one SkipSpaces finds. */
  lemma {:induction false} SkipSpacesTo(t: string, j: nat, m: nat)
    requires j <= m <= |t|
    requires forall k :: j <= k < m ==> IsSpace(t[k])
    requires m < |t| ==> !IsSpace(t[m])
    ensures SkipSpaces(t, j) == m
    decreases m - j
  {
    if j < m {
      SkipSpacesTo(t, j + 1, m);
    }
  }

  predicate HasAt(t: string, i: nat, w: string) {
    i + |w| <= |t| && t[i..i + |w|] == w
  }

  /** `\s*```` matches at `e`: the whitespace run from `e` is followed by the closing fence. */
  predicate ClosesAt(t: string, e: nat)
    requires e <= |t|
  {
    HasAt(t, SkipSpaces(t, e), CloseFence)
  }

  /** The lazy group `([\s\S]*?)`: the first end `e >= j` after which `\s*```` matches. */
  function FindClose(t: string, j: nat): (r: Option<nat>)
    requires j <= |t|
    ensures r.Some? ==> j <= r.value <= |t| && ClosesAt(t, r.value)
    ensures r.Some? ==> forall k :: j <= k < r.value ==> !ClosesAt(t, k)
    ensures r.None? ==> forall k :: j <= k <= |t| ==> !ClosesAt(t, k)
    decreases |t| - j
  {
    if ClosesAt(t, j) then Some(j)
    else if j == |t| then None
    else FindClose(t, j + 1)
  }

  /**
   * The pattern ```` ```json\s*([\s\S]*?)\s*``` ```` tried at exactly position `i`: the
   * bounds of its group. Backtracking the greedy leading `\s*` cannot help, since every
   * shorter start sees the same whitespace run before the same next character.
   */
  function MatchAt(t: string, i: nat): (r: Option<(nat, nat)>)
    requires i <= |t|
    ensures r.Some? ==> HasAt(t, i, OpenFence)
    ensures r.Some? ==> i + |OpenFence| <= r.value.0 <= r.value.1 <= |t|
    ensures r.Some? ==> r.value.0 == SkipSpaces(t, i + |OpenFence|)
    ensures r.Some? ==> ClosesAt(t, r.value.1)
    ensures r.Some? ==> forall k :: r.value.0 <= k < r.value.1 ==> !ClosesAt(t, k)
    ensures r.None? && HasAt(t, i, OpenFence) ==>
      forall k :: SkipSpaces(t, i + |OpenFence|) <= k <= |t| ==> !ClosesAt(t, k)
  {
    if HasAt(t, i, OpenFence) then
      var g := SkipSpaces(t, i + |OpenFence|);
      match FindClose(t, g)
      case Some(e) => Some((g, e))
      case None => None
    else None
  }

  /** `re.search`: the leftmost start from `i` on at which the pattern matches. */
  function FirstMatch(t: string, i: nat): (r: Option<nat>)
    requires i <= |t|
    ensures r.Some? ==> i <= r.value <= |t| && MatchAt(t, r.value).Some?
    ensures r.Some? ==> forall k :: i <= k < r.value ==> MatchAt(t, k).None?
    ensures r.None? ==> forall k :: i <= k <= |t| ==> MatchAt(t, k).None?
    decreases |t| - i
  {
    if MatchAt(t, i).Some? then Some(i)
    else if i == |t| then None
    else FirstMatch(t, i + 1)
  }

  /** The text holds a complete ```json ... ``` block somewhere. */
  predicate Fenced(t: string) {
    exists i: nat :: i <= |t| && MatchAt(t, i).Some?
  }

  /** Neither leading nor trailing whitespace. */
  predicate Trimmed(c: string) {
    |c| > 0 ==> !IsSpace(c[0]) && !IsSpace(c[|c| - 1])
  }

  /** `c` is the group of the match at `i`, and no position before `i` matches. */
  predicate FirstGroup(t: string, i: nat, c: string) {
    && i <= |t|
    && MatchAt(t, i).Some?
    && (forall k :: 0 <= k < i ==> MatchAt(t, k).None?)
    && c == t[MatchAt(t, i).value.0..MatchAt(t, i).value.1]
  }

  /**
   * Lines 79-83: the group of the leftmost ```json block match, or the whole text when
   * there is none. The group is a piece of the text, trimmed, and never holds a closing fence.
   */
  function Candidate(t: string): (c: string)
    ensures !Fenced(t) ==> c == t
    ensures Fenced(t) ==> exists i :: FirstGroup(t, i, c)
    ensures Fenced(t) ==> Trimmed(c) && !IsSubstring(CloseFence, c)
    ensures IsSubstring(c, t)
  {
    match FirstMatch(t, 0)
    case None =>
      assert OccursAt(t, t, 0);
      t
    case Some(i) =>
      var (g, e) := MatchAt(t, i).value;
      InteriorProperties(t, g, e);
      assert OccursAt(t[g..e], t, g);
      assert FirstGroup(t, i, t[g..e]);
      t[g..e]
  }

  lemma InteriorProperties(t: string, g: nat, e: nat)
    requires g <= e <= |t|
    requires g < |t| ==> !IsSpace(t[g])
    requires ClosesAt(t, e)
    requires forall k :: g <= k < e ==> !ClosesAt(t, k)
    ensures Trimmed(t[g..e])
    ensures !IsSubstring(CloseFence, t[g..e])
  {
    if g < e {
      assert t[g..e][0] == t[g];
      assert t[g..e][e - g - 1] == t[e - 1];
      assert !ClosesAt(t, e - 1);
    }
    forall k: nat | k <= e - g
      ensures !OccursAt(CloseFence, t[g..e], k)
    {
      if k + 3 <= e - g {
        InteriorNoFenceAt(t, g, e, k);
      }
    }
  }

  /** No closing fence starts at `g + k`, since the lazy group would have ended there. */
  lemma InteriorNoFenceAt(t: string, g: nat, e: nat, k: nat)
    requires g + k + 3 <= e <= |t|
    requires !ClosesAt(t, g + k)
    ensures !OccursAt(CloseFence, t[g..e], k)
  {
    SubSlice(t, g, t[g..e], k, 3);
    if IsSpace(t[g + k]) {
      assert t[g + k..g + k + 3][0] == t[g + k];
    } else {
      assert SkipSpaces(t, g + k) == g + k;
    }
  }

  // ---------------------------------------------------------------------------
  // Trailing-comma repair (lines 86-87)
  // ---------------------------------------------------------------------------

  /** `,\s*` followed by `close` starts at `i`. */
  predicate TrailingCommaAt(s: string, i: nat, close: char) {
    && i < |s|
    && s[i] == ','
    && SkipSpaces(s, i + 1) < |s|
    && s[SkipSpaces(s, i + 1)] == close
  }

  predicate HasTrailingComma(s: string, close: char) {
    exists i: nat :: i < |s| && TrailingCommaAt(s, i, close)
  }

  /**
   * One left-to-right, non-overlapping pass of `re.sub(r',\s*' + close, close, s)`:
   * each comma whose whitespace run ends at `close` is dropped with that run.
   */
  function StripTrailingCommas(s: string, close: char): (r: string)
    ensures |r| <= |s|
    decreases |s|
  {
    if |s| == 0 then ""
    else if TrailingCommaAt(s, 0, close) then
      [close] + StripTrailingCommas(s[SkipSpaces(s, 1) + 1..], close)
    else
      [s[0]] + StripTrailingCommas(s[1..], close)
  }

  /**
   * Both substitutions of lines 86-87, braces first. The repair never lengthens the text,
   * removes only commas and whitespace, and leaves the text unchanged exactly when it
   * holds no comma-before-`}` or comma-before-`]`.
   */
  function Repair(s: string): (r: string)
    ensures |r| <= |s|
    ensures Squeeze(r) == Squeeze(s)
    ensures r == s <==> !HasTrailingComma(s, '}') && !HasTrailingComma(s, ']')
  {
    var s1 := StripTrailingCommas(s, '}');
    StripChangesOnlyMatches(s, '}');
    StripChangesOnlyMatches(s1, ']');
    StripKeepsSqueeze(s, '}');
    StripKeepsSqueeze(s1, ']');
    StripTrailingCommas(s1, ']')
  }

  /**
   * The leftmost match is replaced and the search resumes after it: with `i` the first
   * comma whose whitespace run ends at `close`, the text before it is kept, the comma and
   * run are dropped, and the rest is processed on its own.
   */
  lemma {:induction false} StripFirstMatch(s: string, close: char, i: nat)
    requires TrailingCommaAt(s, i, close)
    requires forall k: nat :: k < i ==> !TrailingCommaAt(s, k, close)
    ensures StripTrailingCommas(s, close)
         == s[..i] + [close] + StripTrailingCommas(s[SkipSpaces(s, i + 1) + 1..], close)
  {
    StripMatchAt(s, close, i, SkipSpaces(s, i + 1));
  }

  /** The same, with `e` the end of the whitespace run after the comma. */
  lemma {:induction false} StripMatchAt(s: string, close: char, i: nat, e: nat)
    requires TrailingCommaAt(s, i, close) && e == SkipSpaces(s, i + 1)
    requires forall k: nat :: k < i ==> !TrailingCommaAt(s, k, close)
    ensures StripTrailingCommas(s, close) == s[..i] + [close] + StripTrailingCommas(s[e + 1..], close)
    decreases i, 1
  {
    if i == 0 {
      StripMatchFront(s, close, i, e);
    } else {
      StripMatchLater(s, close, i, e);
    }
  }

  /** The inductive step: the tail's first match is one position earlier, and its run ends one place earlier. */
  lemma {:induction false} StripMatchLater(s: string, close: char, i: nat, e: nat)
    requires 0 < i && TrailingCommaAt(s, i, close) && e == SkipSpaces(s, i + 1)
    requires forall k: nat :: k < i ==> !TrailingCommaAt(s, k, close)
    ensures StripTrailingCommas(s, close) == s[..i] + [close] + StripTrailingCommas(s[e + 1..], close)
    decreases i, 0
  {
    var t := s[1..];
    TailMatch(s, t, close, i);
    NoEarlierShift(s, t, close, i);
    RunEndShift(s, t, i);
    StripMatchAt(t, close, i - 1, e - 1);
    StripKeepsFirst(s, t, close);
    ExtendMatchAt(s, t, close, i, e - 1, e);
  }

  /** A match at the very front: nothing is kept before the bracket. */
  lemma {:induction false} StripMatchFront(s: string, close: char, i: nat, e: nat)
    requires i == 0 && TrailingCommaAt(s, i, close) && e == SkipSpaces(s, i + 1)
    ensures StripTrailingCommas(s, close) == s[..i] + [close] + StripTrailingCommas(s[e + 1..], close)
  {
    assert i + 1 == 1 && s[..i] == [];
    StripDropsFirst(s, close, e);
  }

  /** A match at `i` in the text is a match at `i - 1` in its tail. */
  lemma {:induction false} TailMatch(s: string, t: string, close: char, i: nat)
    requires 0 < i && TrailingCommaAt(s, i, close) && t == s[1..]
    ensures TrailingCommaAt(t, i - 1, close)
  {
    TrailingCommaShift(s, i - 1, close);
  }

  /** The whitespace run after position `i` ends one place later in the text than in its tail. */
  lemma {:induction false} RunEndShift(s: string, t: string, i: nat)
    requires 0 < i < |s| && t == s[1..]
    ensures SkipSpaces(s, i + 1) == SkipSpaces(t, (i - 1) + 1) + 1
  {
    SkipSpacesShift(s, i + 1);
  }

  /**
   * The tail's first match, seen from the text one character longer; `a` and `b` are where
   * the whitespace run after the comma ends in the tail and in the text.
   */
  lemma {:induction false} ExtendMatchAt(s: string, t: string, close: char, i: nat, a: nat, b: nat)
    requires 0 < i < |s| && t == s[1..]
    requires StripTrailingCommas(s, close) == [s[0]] + StripTrailingCommas(t, close)
    requires a + 1 <= |t| && b == a + 1
    requires StripTrailingCommas(t, close) == t[..i - 1] + [close] + StripTrailingCommas(t[a + 1..], close)
    ensures StripTrailingCommas(s, close) == s[..i] + [close] + StripTrailingCommas(s[b + 1..], close)
  {
    SliceShift(s, t, a);
    PrependKept(s, t, i, close, StripTrailingCommas(s, close), StripTrailingCommas(t, close),
                StripTrailingCommas(s[b + 1..], close));
  }

  /** A suffix of the tail is the suffix of the text one position further on. */
  lemma {:induction false} SliceShift<T>(s: seq<T>, t: seq<T>, a: nat)
    requires |s| > 0 && t == s[1..] && a + 1 <= |t|
    ensures t[a + 1..] == s[a + 2..]
  {
  }

  /** A match at the front is replaced by the bracket alone. */
  lemma {:induction false} StripDropsFirst(s: string, close: char, e: nat)
    requires TrailingCommaAt(s, 0, close) && e == SkipSpaces(s, 1)
    ensures StripTrailingCommas(s, close) == [close] + StripTrailingCommas(s[e + 1..], close)
  {
  }

  /** No match before `i` in the text means none before `i - 1` in its tail. */
  lemma {:induction false} NoEarlierShift(s: string, t: string, close: char, i: nat)
    requires 0 < i && |s| > 0 && t == s[1..]
    requires forall k: nat :: k < i ==> !TrailingCommaAt(s, k, close)
    ensures !TrailingCommaAt(s, 0, close)
    ensures forall k: nat :: k < i - 1 ==> !TrailingCommaAt(t, k, close)
  {
    forall k: nat | k < i - 1
      ensures !TrailingCommaAt(t, k, close)
    {
      TrailingCommaShift(s, k, close);
    }
  }

  /** Keeping the first character in front of the tail's result keeps it in front of the kept text. */
  lemma {:induction false} PrependKept(s: string, t: string, i: nat, close: char, whole: string, tail: string, rest: string)
    requires 0 < i <= |s| && t == s[1..]
    requires whole == [s[0]] + tail
    requires tail == t[..i - 1] + [close] + rest
    ensures whole == s[..i] + [close] + rest
  {
    assert s[..i] == [s[0]] + t[..i - 1];
    AppendAssoc([s[0]], t[..i - 1] + [close], rest);
    AppendAssoc([s[0]], t[..i - 1], [close]);
  }

  /** Without a match at the front, the first character is kept as it is. */
  lemma {:induction false} StripKeepsFirst(s: string, t: string, close: char)
    requires |s| > 0 && !TrailingCommaAt(s, 0, close) && t == s[1..]
    ensures StripTrailingCommas(s, close) == [s[0]] + StripTrailingCommas(t, close)
  {
  }

  lemma {:induction false} SkipSpacesShift(s: string, j: nat)
    requires 1 <= j <= |s|
    ensures SkipSpaces(s, j) == 1 + SkipSpaces(s[1..], j - 1)
    decreases |s| - j
  {
    if j < |s| && IsSpace(s[j]) {
      assert s[1..][j - 1] == s[j];
      SkipSpacesShift(s, j + 1);
    }
  }

  lemma TrailingCommaShift(s: string, i: nat, close: char)
    requires |s| > 0
    ensures TrailingCommaAt(s, i + 1, close) <==> TrailingCommaAt(s[1..], i, close)
  {
    if i + 1 < |s| {
      SkipSpacesShift(s, i + 2);
    }
  }

  lemma HasTrailingCommaShift(s: string, close: char)
    requires |s| > 0 && !TrailingCommaAt(s, 0, close)
    ensures HasTrailingComma(s, close) <==> HasTrailingComma(s[1..], close)
  {
    if HasTrailingComma(s, close) {
      var i: nat :| TrailingCommaAt(s, i, close);
      assert i > 0;
      TrailingCommaShift(s, i - 1, close);
    }
    if HasTrailingComma(s[1..], close) {
      var i: nat :| TrailingCommaAt(s[1..], i, close);
      TrailingCommaShift(s, i, close);
    }
  }

  /**
   * The pass changes text exactly when the text has a comma-before-`close` pattern,
   * and then it makes the text strictly shorter.
   */
  lemma {:induction false} StripChangesOnlyMatches(s: string, close: char)
    ensures HasTrailingComma(s, close) ==> |StripTrailingCommas(s, close)| < |s|
    ensures !HasTrailingComma(s, close) ==> StripTrailingCommas(s, close) == s
    decreases |s|
  {
    if |s| == 0 {
    } else if TrailingCommaAt(s, 0, close) {
    } else {
      StripChangesOnlyMatches(s[1..], close);
      HasTrailingCommaShift(s, close);
    }
  }

  /** Commas and whitespace: the only characters the repair may remove. */
  predicate Removable(c: char) {
    c == ',' || IsSpace(c)
  }

  /** The text with every comma and whitespace character dropped. */
  function Squeeze(s: string): string {
    if |s| == 0 then ""
    else (if Removable(s[0]) then "" else [s[0]]) + Squeeze(s[1..])
  }

  lemma {:induction false} SqueezeSkips(s: string, j: nat, m: nat)
    requires j <= m <= |s|
    requires forall k :: j <= k < m ==> Removable(s[k])
    ensures Squeeze(s[j..]) == Squeeze(s[m..])
    decreases m - j
  {
    if j < m {
      assert s[j..][1..] == s[j + 1..];
      SqueezeSkips(s, j + 1, m);
    }
  }

  /** Every character other than a comma or whitespace survives, in order: brackets are kept. */
  lemma {:induction false} StripKeepsSqueeze(s: string, close: char)
    requires close == '}' || close == ']'
    ensures Squeeze(StripTrailingCommas(s, close)) == Squeeze(s)
    decreases |s|
  {
    if |s| == 0 {
    } else if TrailingCommaAt(s, 0, close) {
      var m := SkipSpaces(s, 1);
      var rest := StripTrailingCommas(s[m + 1..], close);
      StripKeepsSqueeze(s[m + 1..], close);
      SqueezeSkips(s, 0, m);
      assert s[0..] == s;
      assert s[m..][1..] == s[m + 1..];
      assert ([close] + rest)[1..] == rest;
    } else {
      StripKeepsSqueeze(s[1..], close);
      assert ([s[0]] + StripTrailingCommas(s[1..], close))[1..] == StripTrailingCommas(s[1..], close);
    }
  }

  lemma StripNonComma(s: string, close: char)
    requires |s| > 0 && s[0] != ','
    ensures StripTrailingCommas(s, close) == [s[0]] + StripTrailingCommas(s[1..], close)
  {
  }

  lemma {:induction false} StripCommaFreePrefix(p: string, x: string, close: char)
    requires forall k :: 0 <= k < |p| ==> p[k] != ','
    ensures StripTrailingCommas(p + x, close) == p + StripTrailingCommas(x, close)
  {
    if |p| > 0 {
      var s := p + x;
      assert s[0] == p[0];
      StripNonComma(s, close);
      assert s[1..] == p[1..] + x;
      StripCommaFreePrefix(p[1..], x, close);
      assert p == [p[0]] + p[1..];
    } else {
      assert p + x == x;
    }
  }

  /** `{"score": 3,}` is repaired to `{"score": 3}`. */
  lemma RepairExample()
    ensures Repair("{\"score\": 3,}") == "{\"score\": 3}"
  {
    var p := "{\"score\": 3";
    assert "{\"score\": 3,}" == p + ",}";
    StripCloseExample('}');
    StripCommaFreePrefix(p, ",}", '}');
    var q := "{\"score\": 3}";
    assert q == p + "}";
    assert q == q + "";
    StripCommaFreePrefix(q, "", ']');
  }

  lemma StripCloseExample(close: char)
    requires close == '}' || close == ']'
    ensures StripTrailingCommas([',', close], close) == [close]
  {
    var s := [',', close];
    SkipSpacesTo(s, 1, 1);
  }

  /** The repair is a single pass, not a fixpoint: `,,}` becomes `,}`, which repairs again to `}`. */
  lemma RepairNotIdempotent()
    ensures Repair(",,}") == ",}"
    ensures Repair(",}") == "}"
  {
    assert StripTrailingCommas(",}", '}') == "}";
    assert StripTrailingCommas(",,}", '}') == ",}";
    StripCommaFreePrefix("}", "", ']');
    assert StripTrailingCommas(",}", ']') == ",}";
  }

  // ---------------------------------------------------------------------------
  // Fenced and unfenced replies
  // ---------------------------------------------------------------------------

  predicate AllSpace(w: string) {
    forall k :: 0 <= k < |w| ==> IsSpace(w[k])
  }

  predicate NoBacktick(w: string) {
    forall k :: 0 <= k < |w| ==> w[k] != '`'
  }

  /** A payload as the extractor returns it from a block: trimmed and free of closing fences. */
  predicate FenceablePayload(p: string) {
    && |p| > 0
    && !IsSpace(p[0])
    && !IsSpace(p[|p| - 1])
    && !IsSubstring(CloseFence, p)
  }

  /**
   * A payload wrapped in a ```json block (after prose without backticks, with any
   * whitespace inside the fences and any text after) yields the same candidate as the
   * payload alone. A payload ending in a backtick needs whitespace before the closing
   * fence, or the fence would close early.
   */
  lemma FencedMatchesUnfenced(pre: string, ws1: string, p: string, ws2: string, post: string)
    requires NoBacktick(pre) && AllSpace(ws1) && AllSpace(ws2)
    requires FenceablePayload(p)
    requires |ws2| > 0 || p[|p| - 1] != '`'
    ensures Candidate(pre + OpenFence + ws1 + p + ws2 + CloseFence + post) == p
    ensures Candidate(p) == p
  {
    var t := pre + OpenFence + ws1 + p + ws2 + CloseFence + post;
    var a := |pre|;
    var o := a + |OpenFence|;
    var g := o + |ws1|;
    var pe := g + |p|;
    var c := pe + |ws2|;
    FenceLayout(pre, ws1, p, ws2, post);
    OpensFirstAt(t, pre);
    SkipSpacesOver(t, o, ws1, g);
    ClosesAfterPayload(t, g, p, ws2);
    MatchesAt(t, a, g, pe);
    FirstMatchAt(t, a);
    UnfencedPayload(p);
  }

  /** An opening fence, the whitespace run after it, and the group's end determine the match. */
  lemma MatchesAt(t: string, a: nat, g: nat, e: nat)
    requires a + |OpenFence| <= g <= |t| && t[a..a + |OpenFence|] == OpenFence
    requires SkipSpaces(t, a + |OpenFence|) == g
    requires FindClose(t, g) == Some(e)
    ensures MatchAt(t, a) == Some((g, e))
  {
  }

  /** The search stops at the first position where the pattern matches. */
  lemma FirstMatchAt(t: string, a: nat)
    requires a <= |t| && MatchAt(t, a).Some?
    requires forall i :: 0 <= i < a ==> MatchAt(t, i).None?
    ensures FirstMatch(t, 0) == Some(a)
  {
    var r := FirstMatch(t, 0);
    assert r.Some?;
    assert r.value == a;
  }

  /** Where each part of a fenced reply sits in it. */
  lemma FenceLayout(pre: string, ws1: string, p: string, ws2: string, post: string)
    ensures var t := pre + OpenFence + ws1 + p + ws2 + CloseFence + post;
      var o := |pre| + 7;
      var g := o + |ws1|;
      var pe := g + |p|;
      var c := pe + |ws2|;
      && |OpenFence| == 7 && |CloseFence| == 3 && |t| == c + 3 + |post|
      && t[..|pre|] == pre && t[|pre|..o] == OpenFence && t[o..g] == ws1
      && t[g..pe] == p && t[pe..c] == ws2 && t[c..c + 3] == CloseFence
  {
    var t := pre + OpenFence + ws1 + p + ws2 + CloseFence + post;
    var a := |pre|;
    var o := a + |OpenFence|;
    var g := o + |ws1|;
    var pe := g + |p|;
    var c := pe + |ws2|;
    assert |OpenFence| == 7 && |CloseFence| == 3;
    assert t[..a] == pre;
    assert t[a..o] == OpenFence;
    assert t[o..g] == ws1;
    assert t[g..pe] == p;
    assert t[pe..c] == ws2;
    assert t[c..c + 3] == CloseFence;
  }

  /** No opening fence starts inside backtick-free prose, so the search reaches |pre|. */
  lemma OpensFirstAt(t: string, pre: string)
    requires NoBacktick(pre) && |pre| <= |t| && t[..|pre|] == pre
    ensures forall i :: 0 <= i < |pre| ==> MatchAt(t, i).None?
  {
    forall i | 0 <= i < |pre|
      ensures MatchAt(t, i).None?
    {
      assert t[i] == pre[i];
      NoOpenAt(t, i);
    }
  }

  /** No match starts at a character other than a backtick. */
  lemma NoOpenAt(t: string, i: nat)
    requires i < |t| && t[i] != '`'
    ensures MatchAt(t, i).None?
  {
    if i + |OpenFence| <= |t| {
      assert t[i..i + |OpenFence|][0] == t[i];
    }
  }

  lemma SkipSpacesOver(t: string, o: nat, ws: string, g: nat)
    requires AllSpace(ws) && g == o + |ws| && g < |t| && !IsSpace(t[g])
    requires t[o..g] == ws
    ensures SkipSpaces(t, o) == g
  {
    forall k | o <= k < g
      ensures IsSpace(t[k])
    {
      assert t[k] == t[o..g][k - o];
    }
    SkipSpacesTo(t, o, g);
  }

  /** With the payload at `g`, the lazy group ends exactly where the payload ends. */
  lemma ClosesAfterPayload(t: string, g: nat, p: string, ws2: string)
    requires FenceablePayload(p) && AllSpace(ws2)
    requires |ws2| > 0 || p[|p| - 1] != '`'
    requires g + |p| + |ws2| + 3 <= |t|
    requires t[g..g + |p|] == p
    requires t[g + |p|..g + |p| + |ws2|] == ws2
    requires t[g + |p| + |ws2|..g + |p| + |ws2| + 3] == CloseFence
    ensures FindClose(t, g) == Some(g + |p|)
  {
    var pe := g + |p|;
    var c := pe + |ws2|;
    assert t[c] == t[c..c + 3][0] == '`';
    SkipSpacesOver(t, pe, ws2, c);
    assert ClosesAt(t, pe);
    forall k | g <= k < pe
      ensures !ClosesAt(t, k)
    {
      NoFenceInsidePayload(t, p, g, ws2, k);
    }
  }

  lemma NoFenceInsidePayload(t: string, p: string, g: nat, ws2: string, k: nat)
    requires FenceablePayload(p) && AllSpace(ws2)
    requires |ws2| > 0 || p[|p| - 1] != '`'
    requires g <= k < g + |p| && g + |p| + |ws2| <= |t|
    requires t[g..g + |p|] == p
    requires t[g + |p|..g + |p| + |ws2|] == ws2
    ensures !ClosesAt(t, k)
  {
    var pe := g + |p|;
    var m := SkipSpaces(t, k);
    SliceAt(t, g, p, |p| - 1);
    assert m < pe;
    if m + 3 <= pe {
      // Three characters inside the payload, which holds no fence.
      SubSlice(t, g, p, m - g, 3);
      assert !OccursAt(CloseFence, p, m - g);
    } else if m + 3 <= |t| {
      // Three characters straddling the payload's end: either the payload's last
      // character or the whitespace after it is not a backtick.
      if |ws2| > 0 {
        SliceAt(t, pe, ws2, 0);
        NotFenceAt(t, m, pe - m);
      } else {
        NotFenceAt(t, m, pe - 1 - m);
      }
    }
  }

  /** A slice equal to `p` holds `p`'s characters at the matching positions. */
  lemma SliceAt(t: string, g: nat, p: string, i: nat)
    requires g + |p| <= |t| && t[g..g + |p|] == p && i < |p|
    ensures t[g + i] == p[i]
  {
    assert t[g..g + |p|][i] == t[g + i];
  }

  lemma SubSlice(t: string, g: nat, p: string, i: nat, n: nat)
    requires g + |p| <= |t| && t[g..g + |p|] == p && i + n <= |p|
    ensures t[g + i..g + i + n] == p[i..i + n]
  {
    forall k | i <= k < i + n
      ensures t[g + k] == p[k]
    {
      SliceAt(t, g, p, k);
    }
  }

  /** Three characters with a non-backtick among them are not a closing fence. */
  lemma NotFenceAt(t: string, m: nat, x: nat)
    requires m + 3 <= |t| && x < 3 && t[m + x] != '`'
    ensures !HasAt(t, m, CloseFence)
  {
    assert t[m..m + 3][x] == t[m + x];
  }

  lemma NoBacktickNoFence(t: string)
    requires NoBacktick(t)
    ensures !IsSubstring(CloseFence, t)
  {
    forall i: nat | i <= |t| && i + 3 <= |t|
      ensures !OccursAt(CloseFence, t, i)
    {
      assert t[i..i + 3][0] == t[i];
    }
  }

  /** Text without a closing fence holds no opening fence either, so it is its own candidate. */
  lemma UnfencedPayload(p: string)
    requires !IsSubstring(CloseFence, p)
    ensures Candidate(p) == p
  {
    forall i: nat | i <= |p|
      ensures !HasAt(p, i, OpenFence)
    {
      if i + |OpenFence| <= |p| {
        assert !OccursAt(CloseFence, p, i);
        assert p[i..i + 7][..3] == p[i..i + 3];
        assert OpenFence[..3] == CloseFence;
      }
    }
    assert !Fenced(p);
  }

  // ---------------------------------------------------------------------------
  // Derived `dimension_scores` view and the whole call (lines 88-101)
  // ---------------------------------------------------------------------------

  /** The score a `dimensions` entry carries: only an object can carry one without raising. */
  function EntryScore(detail: Json): Option<Json> {
    match Probe(detail, "score")
    case Ok(Some(v)) => Some(v)
    case _ => None
  }

  /**
   * `view` is the flat map of `dims`: exactly the entries that carry a score, each mapped
   * to that same score.
   */
  ghost predicate IsScoreView(view: Json, dims: Json) {
    && view.JObj?
    && dims.JObj?
    && (forall k :: k in view.fields <==> k in dims.fields && EntryScore(dims.fields[k]).Some?)
    && (forall k :: k in view.fields ==> Some(view.fields[k]) == EntryScore(dims.fields[k]))
  }

  /** The top-level value holds a `dimensions` key (only an object can, without raising). */
  predicate HasDimensions(data: Json) {
    data.JObj? && "dimensions" in data.fields
  }

  /**
   * Lines 93-98. A value with a `dimensions` object gains `dimension_scores`; any other
   * value passes unchanged, unless one of the Python tests on it raises.
   */
  function DeriveDimensionScores(data: Json): (r: Result<Json, Failure>)
    ensures Probe(data, "dimensions") == Ok(None) ==> r == Ok(data)
    ensures r.Ok? && HasDimensions(data) ==>
      && r.value.JObj?
      && r.value.fields.Keys == data.fields.Keys + {"dimension_scores"}
      && (forall k :: k in data.fields && k != "dimension_scores" ==> r.value.fields[k] == data.fields[k])
      && IsScoreView(r.value.fields["dimension_scores"], data.fields["dimensions"])
    ensures r.Err? <==>
      || Probe(data, "dimensions").Err?
      || (HasDimensions(data) && !data.fields["dimensions"].JObj?)
      || (HasDimensions(data) && data.fields["dimensions"].JObj? &&
          exists k :: k in data.fields["dimensions"].fields && Probe(data.fields["dimensions"].fields[k], "score").Err?)
    ensures r.Err? ==> r.error == ShapeMismatch
  {
    match Probe(data, "dimensions")
    case Err(f) => Err(f)
    case Ok(None) => Ok(data)
    case Ok(Some(dims)) =>
      if !dims.JObj? then Err(ShapeMismatch)  // `.items()` on a non-dict
      else if exists k :: k in dims.fields && Probe(dims.fields[k], "score").Err? then Err(ShapeMismatch)
      else
        var view := map k | k in dims.fields && EntryScore(dims.fields[k]).Some? :: EntryScore(dims.fields[k]).value;
        Ok(JObj(data.fields["dimension_scores" := JObj(view)]))
  }

  /** What the text-generation service gave back for one prompt. */
  datatype Reply =
    | Unavailable(reason: string)  // transport error, timeout, no completion choices, or no content
    | Completed(text: string)

  /** `json.loads`: a parameter of the model, returning the decoded value or the error text. */
  type Parser = string -> Result<Json, string>

  /**
   * `call_ai_model` after the service has answered: extract, repair, parse, derive.
   * A service failure, a parse failure or a shape error is raised to the caller.
   */
  function CallModel(reply: Reply, parse: Parser): (r: Result<Json, Failure>)
    ensures reply.Unavailable? ==> r == Err(ServiceFailed(reply.reason))
    ensures reply.Completed? && parse(Repair(Candidate(reply.text))).Err? ==>
      r == Err(ParseFailed(parse(Repair(Candidate(reply.text))).error))
    ensures reply.Completed? && parse(Repair(Candidate(reply.text))).Ok? ==>
      r == DeriveDimensionScores(parse(Repair(Candidate(reply.text))).value)
  {
    match reply
    case Unavailable(reason) => Err(ServiceFailed(reason))
    case Completed(text) =>
      match parse(Repair(Candidate(text)))
      case Err(msg) => Err(ParseFailed(msg))
      case Ok(data) => DeriveDimensionScores(data)
  }

  /** Feeding a fenced payload or the same payload unfenced gives the same result. */
  lemma FencedReplyMatchesUnfenced(pre: string, ws1: string, p: string, ws2: string, post: string, parse: Parser)
    requires NoBacktick(pre) && AllSpace(ws1) && AllSpace(ws2)
    requires FenceablePayload(p)
    requires |ws2| > 0 || p[|p| - 1] != '`'
    ensures CallModel(Completed(pre + OpenFence + ws1 + p + ws2 + CloseFence + post), parse)
         == CallModel(Completed(p), parse)
  {
    FencedMatchesUnfenced(pre, ws1, p, ws2, post);
  }

  /**
   * A reply `{"score": 3,}` is accepted: whatever parser accepts the repaired
   * `{"score": 3}` as an object holding score 3 makes the call succeed with score 3.
   */
  lemma TrailingCommaReplyParses(parse: Parser)
    requires parse("{\"score\": 3}") == Ok(JObj(map["score" := JInt(3)]))
    ensures CallModel(Completed("{\"score\": 3,}"), parse) == Ok(JObj(map["score" := JInt(3)]))
  {
    var t := "{\"score\": 3,}";
    var data := JObj(map["score" := JInt(3)]);
    NoBacktickNoFence(t);
    UnfencedPayload(t);
    RepairExample();
    NoDimensionsField();
    ParsedReply(t, parse, data);
  }

  /** A reply whose repaired candidate parses to a value without `dimensions` yields that value. */
  lemma ParsedReply(text: string, parse: Parser, data: Json)
    requires parse(Repair(Candidate(text))) == Ok(data)
    requires Probe(data, "dimensions") == Ok(None)
    ensures CallModel(Completed(text), parse) == Ok(data)
  {
  }

  lemma NoDimensionsField()
    ensures Probe(JObj(map["score" := JInt(3)]), "dimensions") == Ok(None)
  {
    assert "dimensions" != "score";
  }
}

=== FILE: json.dfy ===
/**
 * Parsed JSON values, as `json.loads` hands them to the scoring pipeline, and the
 * Python operations the pipeline applies to them without knowing their type.
 */
module JsonValues {
  import opened Results

  /** A JSON value. Objects are maps (JSON object keys are always text). */
  datatype Json =
    | JNull
    | JBool(b: bool)
    | JInt(n: int)
    | JStr(s: string)
    | JArr(items: seq<Json>)
    | JObj(fields: map<string, Json>)

  /** Why a stage raised. */
  datatype Failure =
    | ServiceFailed(reason: string)  // transport error, timeout or a reply without completion text
    | ParseFailed(reason: string)    // json.loads rejected the repaired text
    | ShapeMismatch                  // a TypeError or AttributeError on a value of the wrong JSON type

  /** The text of `str(e)` for a failure. Python's own TypeError wording is not reproduced. */
  function Describe(f: Failure): string {
    match f
    case ServiceFailed(reason) => reason
    case ParseFailed(reason) => reason
    case ShapeMismatch => "unexpected JSON value type"
  }

  predicate OccursAt(needle: string, hay: string, i: nat) {
    i + |needle| <= |hay| && hay[i..i + |needle|] == needle
  }

  /** Python's `needle in hay` on two strings. */
  predicate IsSubstring(needle: string, hay: string) {
    exists i: nat :: i <= |hay| && OccursAt(needle, hay, i)
  }

  /**
   * Python's `key in v`, followed by `v[key]` when that test succeeds. On an object it
   * is a key lookup; on a list or a string the membership test itself works, but the
   * subscript with a text key then raises; on a number, boolean or null the membership
   * test raises.
   */
  function Probe(v: Json, key: string): (r: Result<Option<Json>, Failure>)
    ensures r.Ok? && r.value.Some? <==> v.JObj? && key in v.fields
    ensures r.Ok? && r.value.Some? ==> r.value.value == v.fields[key]
    ensures v.JObj? ==> r.Ok?
    ensures v.JNull? || v.JBool? || v.JInt? ==> r.Err?
  {
    match v
    case JObj(f) => Ok(if key in f then Some(f[key]) else None)
    case JArr(items) => if JStr(key) in items then Err(ShapeMismatch) else Ok(None)
    case JStr(s) => if IsSubstring(key, s) then Err(ShapeMismatch) else Ok(None)
    case _ => Err(ShapeMismatch)
  }

  /** Python's `0 + v` on a score value: integers as they are, booleans as 0 or 1, anything else raises. */
  function NumericValue(v: Json): Option<int> {
    match v
    case JInt(n) => Some(n)
    case JBool(b) => Some(if b then 1 else 0)
    case _ => None
  }
}

=== FILE: logging.dfy ===
/**
 * Lines 415-431 of `analyze_data`: printing the subjective analysis records once the
 * result has been stored. The printed text is not modelled. What is modelled is that
 * two of the print statements raise on values of the wrong JSON type, and that the
 * outer `try` then turns the whole request into a failure.
 */
module Logging {
  import opened Results
  import opened JsonValues
  import opened Dimensions
  import opened Subjective

  /** Python's truth value of a JSON value: null, false, 0 and empty text, lists and objects are false. */
  predicate Truthy(v: Json) {
    match v
    case JNull => false
    case JBool(b) => b
    case JInt(n) => n != 0
    case JStr(s) => s != []
    case JArr(items) => items != []
    case JObj(fields) => fields != map[]
  }

  /**
   * Lines 424-429: printing one entry of a record. It raises when the key is `analysis`
   * and the value is truthy but not something `value[:50]` can slice (text or a list),
   * and when the key is `key_traits`, the value is a non-empty list, and one of its first
   * three items is not text, which `', '.join(...)` refuses. Every other entry prints.
   */
  predicate LineRaises(key: string, value: Json) {
    if key == "analysis" then
      Truthy(value) && !value.JStr? && !value.JArr?
    else if key == "key_traits" && value.JArr? then
      Truthy(value) && exists i :: 0 <= i < |value.items| && i < 3 && !value.items[i].JStr?
    else
      false
  }

  /** Lines 422-431: a record that is not an object prints its type; an object prints entry by entry. */
  predicate RecordPrints(info: Json) {
    info.JObj? ==> forall k :: k in info.fields ==> !LineRaises(k, info.fields[k])
  }

  /** Lines 420-431: the loop over `subjective_analysis` finishes without raising. */
  predicate AllPrint(analysis: map<Dim, Json>) {
    forall d :: d in analysis ==> RecordPrints(analysis[d])
  }

  /**
   * Only two entries can stop a record from printing: an `analysis` that is neither text,
   * a list nor falsy, and a `key_traits` list with a non-text item among its first three.
   */
  lemma RecordPrintsExactly(info: Json)
    requires info.JObj?
    ensures RecordPrints(info) <==>
      && ("analysis" in info.fields ==>
            var a := info.fields["analysis"];
            a.JStr? || a.JArr? || a.JNull? || a == JBool(false) || a == JInt(0) || a == JObj(map[]))
      && ("key_traits" in info.fields ==>
            var t := info.fields["key_traits"];
            t.JArr? ==> forall i :: 0 <= i < |t.items| && i < 3 ==> t.items[i].JStr?)
  {
    if !RecordPrints(info) {
      var k :| k in info.fields && LineRaises(k, info.fields[k]);
      assert k == "analysis" || k == "key_traits";
    }
  }

  /** The record stored for a failed dimension always prints. */
  lemma FallbackPrints(f: Failure)
    ensures RecordPrints(FallbackRecord(f))
  {
    var fields := FallbackRecord(f).fields;
    forall k | k in fields
      ensures !LineRaises(k, fields[k])
    {
      assert k == "analysis" || k == "score" || k == "key_traits";
    }
  }

  /**
   * What one dimension's call leaves behind prints unless the service's own reply is an
   * object that does not print.
   */
  lemma ScoreOnePrints(outcome: Result<Json, Failure>)
    ensures outcome.Ok? && outcome.value.JObj? ==>
      (RecordPrints(ScoreOne(outcome).analysis) <==> RecordPrints(outcome.value))
    ensures !(outcome.Ok? && outcome.value.JObj?) ==> RecordPrints(ScoreOne(outcome).analysis)
  {
    match outcome
    case Err(f) => FallbackPrints(f);
    case Ok(v) => if !v.JObj? { FallbackPrints(ShapeMismatch); }
  }

  /** Two subjective states hold the same score and the same record (or none) for `e`. */
  predicate Agree(st1: SubjectiveState, st2: SubjectiveState, e: Dim) {
    && e in st1.scores && e in st2.scores && st1.scores[e] == st2.scores[e]
    && (e in st1.analysis <==> e in st2.analysis)
    && (e in st1.analysis ==> st1.analysis[e] == st2.analysis[e])
  }

  /** Every score is one Python can add, and every record prints. */
  predicate Loggable(st: SubjectiveState) {
    && Total(st.scores)
    && (forall e :: NumericValue(st.scores[e]).Some?)
    && AllPrint(st.analysis)
  }

  /** A state that agrees with a loggable one everywhere but at `d`, and is fine at `d`, is loggable. */
  lemma LoggableElsewhere(st1: SubjectiveState, st2: SubjectiveState, d: Dim)
    requires Loggable(st1) && Total(st2.scores)
    requires forall e :: e != d ==> Agree(st1, st2, e)
    requires NumericValue(st2.scores[d]).Some?
    requires d in st2.analysis ==> RecordPrints(st2.analysis[d])
    ensures Loggable(st2)
  {
    forall e
      ensures NumericValue(st2.scores[e]).Some?
    {
      if e != d {
        assert Agree(st1, st2, e);
      }
    }
    forall e | e in st2.analysis
      ensures RecordPrints(st2.analysis[e])
    {
      if e != d {
        assert Agree(st1, st2, e);
      }
    }
  }

  /** A failed call leaves its dimension with an addable score and a printable record. */
  lemma FailedEntryLoggable(active: seq<Dim>, call: Dim -> Result<Json, Failure>, d: Dim)
    requires call(d).Err?
    ensures NumericValue(ScoreSubjective(active, call).scores[d]).Some?
    ensures d in ScoreSubjective(active, call).analysis ==>
      RecordPrints(ScoreSubjective(active, call).analysis[d])
  {
    ScoreOnePrints(call(d));
  }

  /**
   * Replacing one dimension's call with a failure keeps every subjective score addable
   * and every analysis record printable: the other dimensions keep their entries, and
   * the failed one gets the fallback record and score 2, or stays 0 when it is not scored.
   */
  lemma FailureKeepsLoggable(active: seq<Dim>, call1: Dim -> Result<Json, Failure>,
                             call2: Dim -> Result<Json, Failure>, d: Dim)
    requires call2(d).Err?
    requires forall e :: e != d ==> call2(e) == call1(e)
    requires Loggable(ScoreSubjective(active, call1))
    ensures Loggable(ScoreSubjective(active, call2))
  {
    var st1 := ScoreSubjective(active, call1);
    var st2 := ScoreSubjective(active, call2);
    forall e | e != d
      ensures Agree(st1, st2, e)
    {
      FailureIsolated(active, call1, call2, e);
    }
    FailedEntryLoggable(active, call2, d);
    LoggableElsewhere(st1, st2, d);
  }

  /** A reply scoring 3 whose `key_traits` holds a number raises while it is printed. */
  lemma NumericTraitRaises()
    ensures !RecordPrints(JObj(map["score" := JInt(3), "key_traits" := JArr([JInt(1)])]))
  {
    var info := JObj(map["score" := JInt(3), "key_traits" := JArr([JInt(1)])]);
    var t := info.fields["key_traits"];
    assert "key_traits" != "analysis" && t.JArr? && !t.items[0].JStr?;
    assert LineRaises("key_traits", t);
  }

  /** A reply whose `analysis` is a non-zero number raises while it is printed. */
  lemma NumericAnalysisRaises()
    ensures !RecordPrints(JObj(map["analysis" := JInt(7)]))
  {
    var info := JObj(map["analysis" := JInt(7)]);
    assert LineRaises("analysis", info.fields["analysis"]);
  }

  /**
   * Only the first three traits are joined, and a falsy `analysis` is not sliced, so
   * neither of these raises.
   */
  lemma LaterTraitAndZeroAnalysisPrint()
    ensures RecordPrints(JObj(map["analysis" := JInt(0),
                                  "key_traits" := JArr([JStr("a"), JStr("b"), JStr("c"), JInt(1)])]))
  {
    var t := JArr([JStr("a"), JStr("b"), JStr("c"), JInt(1)]);
    var info := JObj(map["analysis" := JInt(0), "key_traits" := t]);
    RecordPrintsExactly(info);
  }
}

=== FILE: objective.dfy ===
/** Lines 177-195 of `analyze_data`: resolving the chosen option and summing per dimension. */
module Objective {
  import opened Results
  import opened JsonValues
  import opened Text
  import opened Dimensions
  import opened Questions

  /** The `user_choice` recorded on an objective pair. */
  datatype Choice = Choice(key: string, content: string, score: int)

  /** Lines 179-188: the first option whose key equals the submitted answer, if any. */
  function ResolveChoice(answer: string, options: seq<Opt>): (r: Option<Choice>)
    ensures r.None? <==> forall i :: 0 <= i < |options| ==> options[i].key != answer
    ensures r.Some? ==> exists i :: (0 <= i < |options| && options[i].key == answer
      && (forall k :: 0 <= k < i ==> options[k].key != answer)
      && r.value == Choice(answer, options[i].content, options[i].score))
  {
    if |options| == 0 then None
    else if options[0].key == answer then Some(Choice(answer, options[0].content, options[0].score))
    else
      var r := ResolveChoice(answer, options[1..]);
      assert r.Some? ==> exists i :: (1 <= i < |options| && options[i].key == answer
        && (forall k :: 0 <= k < i ==> options[k].key != answer)
        && r.value == Choice(answer, options[i].content, options[i].score)) by {
        if r.Some? {
          var i :| 0 <= i < |options| - 1 && options[1..][i].key == answer
            && (forall k :: 0 <= k < i ==> options[1..][k].key != answer)
            && r.value == Choice(answer, options[1..][i].content, options[1..][i].score);
          assert options[i + 1] == options[1..][i];
          assert forall k :: 1 <= k < i + 1 ==> options[k] == options[1..][k - 1];
        }
      }
      r
  }

  /**
   * With every option key left to its default "1", "2", ..., answering `str(j + 1)`
   * picks option `j`.
   */
  lemma DefaultKeysResolve(os: seq<RawOption>, j: nat)
    requires forall k :: 0 <= k < |os| ==> os[k].key.None?
    requires j < |os|
    ensures ResolveChoice(NatToString(j + 1), FormatOptions(os))
         == Some(Choice(NatToString(j + 1), os[j].content.GetOr(""), os[j].score.GetOr(0)))
  {
    var opts := FormatOptions(os);
    var a := NatToString(j + 1);
    forall k | 0 <= k < j
      ensures opts[k].key != a
    {
      assert opts[k] == FormatOption(k, os[k]);
      NatToStringInjective(k + 1, j + 1);
    }
    assert opts[j] == FormatOption(j, os[j]);
    ResolveFirst(a, opts, j);
  }

  /** When option `j` is the first whose key is the answer, the choice is option `j`. */
  lemma ResolveFirst(answer: string, options: seq<Opt>, j: nat)
    requires j < |options| && options[j].key == answer
    requires forall k :: 0 <= k < j ==> options[k].key != answer
    ensures ResolveChoice(answer, options) == Some(Choice(answer, options[j].content, options[j].score))
  {
    var r := ResolveChoice(answer, options);
    var i :| 0 <= i < |options| && options[i].key == answer
      && (forall k :: 0 <= k < i ==> options[k].key != answer)
      && r.value == Choice(answer, options[i].content, options[i].score);
    assert i == j;
  }

  /** What one objective pair adds to dimension `d`: its chosen score, when it names `d`. */
  function Contribution(p: ObjectivePair, d: Dim): int {
    match p.dimension
    case DimText(s) =>
      if ParseDim(s) == Some(d) then
        match ResolveChoice(p.answer, p.options)
        case Some(c) => c.score
        case None => 0
      else 0
    case DimList(_) => 0
  }

  /** The reference total of dimension `d` over a list of objective pairs. */
  function DimSum(pairs: seq<ObjectivePair>, d: Dim): int {
    if |pairs| == 0 then 0 else Contribution(pairs[0], d) + DimSum(pairs[1..], d)
  }

  predicate HasListDimension(pairs: seq<ObjectivePair>) {
    exists i :: 0 <= i < |pairs| && pairs[i].dimension.DimList?
  }

  /** Lines 193-195 for one pair with a text `dimension`: its chosen score is added to its dimension. */
  function Credit(acc: map<Dim, int>, p: ObjectivePair): (r: map<Dim, int>)
    requires Total(acc) && p.dimension.DimText?
    ensures Total(r)
    ensures forall d :: r[d] == acc[d] + Contribution(p, d)
  {
    match (ParseDim(p.dimension.text), ResolveChoice(p.answer, p.options))
    case (Some(d), Some(c)) => acc[d := acc[d] + c.score]
    case _ => acc
  }

  lemma ListDimensionSplit(pairs: seq<ObjectivePair>)
    requires |pairs| > 0
    ensures HasListDimension(pairs) <==> pairs[0].dimension.DimList? || HasListDimension(pairs[1..])
  {
    if HasListDimension(pairs[1..]) {
      var i :| 0 <= i < |pairs| - 1 && pairs[1..][i].dimension.DimList?;
      assert pairs[i + 1] == pairs[1..][i];
    }
    if HasListDimension(pairs) && !pairs[0].dimension.DimList? {
      var i :| 0 <= i < |pairs| && pairs[i].dimension.DimList?;
      assert pairs[1..][i - 1] == pairs[i];
    }
  }

  /**
   * Lines 192-195, from a running five-key map. A list `dimension` makes the test
   * `dimension in objective_scores` raise (a list cannot be a dict key), so the loop
   * fails exactly when some pair has one; otherwise every dimension gains the
   * reference sum of the chosen scores of the pairs naming it.
   */
  function Accumulate(acc: map<Dim, int>, pairs: seq<ObjectivePair>): (r: Result<map<Dim, int>, Failure>)
    requires Total(acc)
    ensures r.Err? <==> HasListDimension(pairs)
    ensures r.Err? ==> r.error == ShapeMismatch
    ensures r.Ok? ==> Total(r.value) && forall d :: r.value[d] == acc[d] + DimSum(pairs, d)
    decreases |pairs|
  {
    if |pairs| == 0 then Ok(acc)
    else
      ListDimensionSplit(pairs);
      if pairs[0].dimension.DimList? then Err(ShapeMismatch)
      else Accumulate(Credit(acc, pairs[0]), pairs[1..])
  }

  /**
   * Lines 191-195: the five-key map of objective scores. It fails exactly when some pair
   * has a list dimension; otherwise every dimension holds the sum of the chosen scores of
   * the pairs naming it, so unmatched answers and unrecognised dimensions add nothing.
   */
  function ObjectiveScores(pairs: seq<ObjectivePair>): (r: Result<map<Dim, int>, Failure>)
    ensures r.Err? <==> HasListDimension(pairs)
    ensures r.Ok? ==> Total(r.value) && forall d :: r.value[d] == DimSum(pairs, d)
  {
    Accumulate(Zeros(), pairs)
  }

  /**
   * A single-choice question on R with options "1" (score 2) and "2" (score 4),
   * answered "2", scores 4 on R and resolves to option "2".
   */
  lemma SingleChoiceExample()
    ensures var opts := [Opt("1", "a", 2), Opt("2", "b", 4)];
      && ResolveChoice("2", opts) == Some(Choice("2", "b", 4))
      && ObjectiveScores([ObjectivePair("q", DimText("R"), "2", SingleChoice, "", opts)])
         == Ok(map[R := 4, E := 0, A := 0, D := 0, Y := 0])
  {
    var opts := [Opt("1", "a", 2), Opt("2", "b", 4)];
    var pairs := [ObjectivePair("q", DimText("R"), "2", SingleChoice, "", opts)];
    assert ResolveChoice("2", opts) == Some(Choice("2", "b", 4));
    var r := ObjectiveScores(pairs);
    assert pairs[1..] == [];
    assert ParseDim("R") == Some(R);
    assert forall d :: DimSum(pairs, d) == Contribution(pairs[0], d);
    assert r.Ok? && r.value[R] == 4 && r.value[E] == 0 && r.value[A] == 0 && r.value[D] == 0 && r.value[Y] == 0;
    assert r.value == map[R := 4, E := 0, A := 0, D := 0, Y := 0] by {
      forall d: Dim ensures d in r.value && d in {R, E, A, D, Y} { OneOfFive(d); }
    }
  }
}

=== FILE: pipeline.dfy ===
/**
 * `analyze_data` end to end (lines 113-452): format and classify the questions, score
 * the objective answers, score each populated subjective dimension with one service
 * call, add the two, ask the service for the narrative report, reconcile it, and wrap
 * the outcome in the `{code, message, data}` envelope.
 */
module Pipeline {
  import opened Results
  import opened JsonValues
  import opened Dimensions
  import opened Questions
  import opened Extraction
  import opened Objective
  import opened Subjective
  import opened Reconciliation
  import opened Logging

  /**
   * The request body. The user profile only feeds the report prompt and the results log,
   * neither of which is modelled, so it is not carried.
   */
  datatype Request = Request(questions: seq<RawQuestion>, answers: map<string, string>)

  /** The service's replies: to the prompt for each scored dimension, and to the report prompt. */
  datatype Service = Service(subjective: Dim -> Reply, report: Reply)

  /** What `call_ai_model` returns or raises for each of those prompts. */
  datatype Outcomes = Outcomes(subjective: Dim -> Result<Json, Failure>, report: Result<Json, Failure>)

  /** The response envelope; `data` is `None` for the JSON `null`. */
  datatype Envelope = Envelope(code: int, message: string, data: Option<Json>)

  const SuccessMessage: string := "分析成功"

  /**
   * Lines 121-170: the answered questions, split into objective and subjective pairs:
   * one pair per answered question, each in the list its type selects.
   */
  function Pairs(req: Request): (r: Classified)
    ensures |r.objective| + |r.subjective| == |Answered(FormatQuestions(req.questions), req.answers)|
    ensures forall p <- r.objective :: !IsSubjectiveType(p.qtype)
    ensures forall p <- r.subjective :: IsSubjectiveType(p.qtype)
  {
    ClassifyByType(FormatQuestions(req.questions), req.answers);
    Classify(FormatQuestions(req.questions), req.answers)
  }

  /** Lines 48-106 applied to every reply, with `parse` standing in for `json.loads`. */
  function Calls(service: Service, parse: Parser): (out: Outcomes)
    ensures service.report.Unavailable? ==> out.report == Err(ServiceFailed(service.report.reason))
    ensures forall d :: service.subjective(d).Unavailable? ==>
      out.subjective(d) == Err(ServiceFailed(service.subjective(d).reason))
  {
    Outcomes(d => CallModel(service.subjective(d), parse), CallModel(service.report, parse))
  }

  /** Lines 202-297: the subjective analysis and scores for these pairs. */
  function SubjectivePart(pairs: Classified, out: Outcomes): (st: SubjectiveState)
    ensures Total(st.scores)
  {
    ScoreSubjective(ActiveDims(pairs.subjective), out.subjective)
  }

  /**
   * Lines 177-431: the reconciled report, or the failure that `analyze_data`'s outer `try`
   * catches. The stages run in the endpoint's order, so the first failure wins: a
   * list-valued objective dimension, then a subjective score Python cannot add, then
   * the report call, then a report of the wrong shape, then an analysis record that
   * cannot be printed. The run succeeds exactly when none of these happens.
   */
  function Run(pairs: Classified, out: Outcomes): (r: Result<Json, Failure>)
    ensures r.Ok? <==>
      && !HasListDimension(pairs.objective)
      && (forall d :: NumericValue(SubjectivePart(pairs, out).scores[d]).Some?)
      && out.report.Ok? && out.report.value.JObj? && Reconcilable(out.report.value.fields)
      && AllPrint(SubjectivePart(pairs, out).analysis)
    ensures r.Ok? ==>
      && ObjectiveScores(pairs.objective).Ok?
      && Totals(ObjectiveScores(pairs.objective).value, SubjectivePart(pairs, out).scores).Ok?
    ensures out.report.Err? ==> r.Err?
  {
    match ObjectiveScores(pairs.objective)
    case Err(f) => Err(f)
    case Ok(objective) =>
      var st := SubjectivePart(pairs, out);
      match Totals(objective, st.scores)
      case Err(f) => Err(f)
      case Ok(totals) =>
        match out.report
        case Err(f) => Err(f)
        case Ok(report) =>
          match Reconcile(report, objective, st.scores, totals, st.analysis)
          case Err(f) => Err(f)
          case Ok(data) =>
            // Lines 409-431: the result is stored, then its analysis records are printed.
            if AllPrint(st.analysis) then Ok(data) else Err(ShapeMismatch)
  }

  /**
   * Lines 439-452: the envelope for the outcome of a run. Success is code 200 with the
   * report as data; a failure is code 500, the failure prefix followed by the failure's
   * text, and null data.
   */
  function Respond(r: Result<Json, Failure>): (e: Envelope)
    ensures e.code == 200 <==> r.Ok?
    ensures e.code == 200 <==> e.data.Some?
    ensures r.Ok? ==> e.data == Some(r.value) && e.message == SuccessMessage
    ensures r.Err? ==> e.code == 500 && e.message == FailurePrefix + Describe(r.error)
  {
    match r
    case Ok(v) => Envelope(200, SuccessMessage, Some(v))
    case Err(f) => Envelope(500, FailurePrefix + Describe(f), None)
  }

  /** Lines 113-452: classify, run the stages, and wrap the outcome. */
  function Analyze(req: Request, out: Outcomes): (e: Envelope)
    ensures e.code == 200 || e.code == 500
    ensures e.code == 200 <==> e.data.Some?
    ensures e.code == 200 ==> e.message == SuccessMessage
    ensures e.code == 500 ==> FailurePrefix <= e.message
  {
    Respond(Run(Pairs(req), out))
  }

  /**
   * When the report call fails the response is a 500 with null data; when every earlier
   * stage succeeded, its message names that call's failure.
   */
  lemma ReportFailureIs500(pairs: Classified, out: Outcomes)
    requires out.report.Err?
    ensures Respond(Run(pairs, out)).code == 500
    ensures Respond(Run(pairs, out)).data.None?
    ensures (&& ObjectiveScores(pairs.objective).Ok?
             && Totals(ObjectiveScores(pairs.objective).value, SubjectivePart(pairs, out).scores).Ok?) ==>
      Respond(Run(pairs, out)).message == FailurePrefix + Describe(out.report.error)
  {
  }

  /** A reconciled report shows the objective, subjective and total scores the run computed. */
  lemma RunShowsDimension(pairs: Classified, out: Outcomes, d: Dim)
    requires Run(pairs, out).Ok?
    ensures var objective := ObjectiveScores(pairs.objective).value;
      var subjective := SubjectivePart(pairs, out).scores;
      ShowsDimension(Run(pairs, out).value, d, objective[d], subjective[d], Totals(objective, subjective).value[d])
  {
    var objective := ObjectiveScores(pairs.objective).value;
    var st := SubjectivePart(pairs, out);
    var totals := Totals(objective, st.scores).value;
    assert Run(pairs, out).value == Reconcile(out.report.value, objective, st.scores, totals, st.analysis).value;
    ReconciledDimension(out.report.value, objective, st.scores, totals, st.analysis, d);
  }

  /** A reconciled report carries the subjective analysis records, one per scored dimension. */
  lemma RunShowsAnalysis(pairs: Classified, out: Outcomes)
    requires Run(pairs, out).Ok?
    ensures var data := Run(pairs, out).value;
      && data.JObj?
      && "subjective_analysis" in data.fields
      && data.fields["subjective_analysis"] == DimObject(SubjectivePart(pairs, out).analysis)
  {
    var objective := ObjectiveScores(pairs.objective).value;
    var st := SubjectivePart(pairs, out);
    var totals := Totals(objective, st.scores).value;
    assert Run(pairs, out).value == Reconcile(out.report.value, objective, st.scores, totals, st.analysis).value;
    ReconciledReport(out.report.value, objective, st.scores, totals, st.analysis);
  }

  /**
   * On success the objective and total scores exist, each objective score is the sum over
   * the objective answers, each total adds the subjective score to it, and the report
   * shows all three for every dimension, both under `dimension_scores` and in its
   * `dimensions` entry.
   */
  lemma SuccessShowsTotals(pairs: Classified, out: Outcomes, d: Dim)
    requires Run(pairs, out).Ok?
    ensures ObjectiveScores(pairs.objective).Ok?
    ensures Totals(ObjectiveScores(pairs.objective).value, SubjectivePart(pairs, out).scores).Ok?
    ensures var objective := ObjectiveScores(pairs.objective).value;
      var subjective := SubjectivePart(pairs, out).scores;
      var totals := Totals(objective, subjective).value;
      && objective[d] == DimSum(pairs.objective, d)
      && NumericValue(subjective[d]).Some?
      && totals[d] == objective[d] + NumericValue(subjective[d]).value
      && ShowsDimension(Run(pairs, out).value, d, objective[d], subjective[d], totals[d])
  {
    RunShowsDimension(pairs, out, d);
  }

  /**
   * With no subjective answer, nothing is analysed, every subjective score is 0 and every
   * total is the objective sum.
   */
  lemma NoSubjectiveAnswers(pairs: Classified, out: Outcomes, d: Dim)
    requires pairs.subjective == []
    requires Run(pairs, out).Ok?
    ensures SubjectivePart(pairs, out).analysis == map[]
    ensures SubjectivePart(pairs, out).scores[d] == JInt(0)
    ensures ObjectiveScores(pairs.objective).Ok?
    ensures var objective := ObjectiveScores(pairs.objective).value;
      var totals := Totals(objective, SubjectivePart(pairs, out).scores);
      totals.Ok? && totals.value[d] == objective[d]
    ensures var data := Run(pairs, out).value;
      "subjective_analysis" in data.fields && data.fields["subjective_analysis"] == JObj(map[])
  {
    NoAnswersAllZero(out.subjective);
    TotalAdds(ObjectiveScores(pairs.objective).value, SubjectivePart(pairs, out).scores, d, 0);
    RunShowsAnalysis(pairs, out);
    EmptyAnalysisShown(SubjectivePart(pairs, out).analysis);
  }

  /** No analysis records make an empty analysis object. */
  lemma EmptyAnalysisShown(analysis: map<Dim, Json>)
    requires analysis == map[]
    ensures DimObject(analysis) == JObj(map[])
  {
    DimObjectFields(analysis);
  }

  /** With no subjective answer no subjective call's outcome matters. */
  lemma NoSubjectiveAnswersNoCalls(pairs: Classified, subjective1: Dim -> Result<Json, Failure>,
                                   subjective2: Dim -> Result<Json, Failure>, report: Result<Json, Failure>)
    requires pairs.subjective == []
    ensures Run(pairs, Outcomes(subjective1, report)) == Run(pairs, Outcomes(subjective2, report))
  {
    NoAnswersAllZero(subjective1);
    NoAnswersAllZero(subjective2);
    var st1 := SubjectivePart(pairs, Outcomes(subjective1, report));
    var st2 := SubjectivePart(pairs, Outcomes(subjective2, report));
    assert st1.scores == st2.scores;
    assert st1 == st2;
  }

  /**
   * A scored dimension whose call fails still appears, with subjective score 2, an
   * analysis record scoring 2, and total objective sum + 2.
   */
  lemma FailedDimensionFallsBack(pairs: Classified, out: Outcomes, d: Dim)
    requires Mentioned(pairs.subjective, d)
    requires out.subjective(d).Err?
    requires Run(pairs, out).Ok?
    ensures SubjectivePart(pairs, out).scores[d] == JInt(2)
    ensures var objective := ObjectiveScores(pairs.objective).value;
      var totals := Totals(objective, SubjectivePart(pairs, out).scores);
      totals.Ok? && totals.value[d] == objective[d] + 2
    ensures var data := Run(pairs, out).value;
      && "subjective_analysis" in data.fields && data.fields["subjective_analysis"].JObj?
      && Key(d) in data.fields["subjective_analysis"].fields
      && data.fields["subjective_analysis"].fields[Key(d)].JObj?
      && "score" in data.fields["subjective_analysis"].fields[Key(d)].fields
      && data.fields["subjective_analysis"].fields[Key(d)].fields["score"] == JInt(2)
  {
    var st := SubjectivePart(pairs, out);
    ActiveWhenMentioned(pairs.subjective, d);
    FailedCallScoresTwo(ActiveDims(pairs.subjective), out.subjective, d);
    RunShowsAnalysis(pairs, out);
    TotalAdds(ObjectiveScores(pairs.objective).value, st.scores, d, 2);
    FallbackShown(Run(pairs, out).value, st.analysis, d);
  }

  /** An integer subjective score is added to the dimension's objective score. */
  lemma TotalAdds(objective: map<Dim, int>, scores: map<Dim, Json>, d: Dim, n: int)
    requires Total(objective) && Total(scores)
    requires Totals(objective, scores).Ok? && scores[d] == JInt(n)
    ensures Totals(objective, scores).value[d] == objective[d] + n
  {
  }

  /** A record scoring 2 shows in the report's analysis object under its dimension's key. */
  lemma FallbackShown(data: Json, analysis: map<Dim, Json>, d: Dim)
    requires data.JObj? && "subjective_analysis" in data.fields
    requires data.fields["subjective_analysis"] == DimObject(analysis)
    requires d in analysis && analysis[d].JObj?
    requires "score" in analysis[d].fields && analysis[d].fields["score"] == JInt(2)
    ensures data.fields["subjective_analysis"].JObj?
    ensures Key(d) in data.fields["subjective_analysis"].fields
    ensures data.fields["subjective_analysis"].fields[Key(d)].JObj?
    ensures "score" in data.fields["subjective_analysis"].fields[Key(d)].fields
    ensures data.fields["subjective_analysis"].fields[Key(d)].fields["score"] == JInt(2)
  {
    DimObjectFields(analysis);
  }

  /** The outcome of one dimension's call decides that dimension's subjective entries alone. */
  lemma DimensionIsolated(pairs: Classified, out1: Outcomes, out2: Outcomes, d: Dim)
    requires out1.subjective(d) == out2.subjective(d)
    ensures SubjectivePart(pairs, out1).scores[d] == SubjectivePart(pairs, out2).scores[d]
    ensures d in SubjectivePart(pairs, out1).analysis <==> d in SubjectivePart(pairs, out2).analysis
    ensures d in SubjectivePart(pairs, out1).analysis ==>
      SubjectivePart(pairs, out1).analysis[d] == SubjectivePart(pairs, out2).analysis[d]
  {
    FailureIsolated(ActiveDims(pairs.subjective), out1.subjective, out2.subjective, d);
  }

  /**
   * An analysis record that cannot be printed makes the response a 500 with null data,
   * although the report was already stored; when every earlier stage succeeded, the
   * message names the type error.
   */
  lemma UnprintableRecordIs500(pairs: Classified, out: Outcomes)
    requires !AllPrint(SubjectivePart(pairs, out).analysis)
    ensures Respond(Run(pairs, out)).code == 500
    ensures Respond(Run(pairs, out)).data.None?
    ensures (&& !HasListDimension(pairs.objective)
             && (forall d :: NumericValue(SubjectivePart(pairs, out).scores[d]).Some?)
             && out.report.Ok?) ==>
      Respond(Run(pairs, out)).message == FailurePrefix + Describe(ShapeMismatch)
  {
  }

  /**
   * A scored dimension whose reply lists a number among its first traits fails the whole
   * request, whatever the other replies and the report are.
   */
  lemma NumericTraitReplyIs500(pairs: Classified, out: Outcomes, d: Dim)
    requires Mentioned(pairs.subjective, d)
    requires out.subjective(d) == Ok(JObj(map["score" := JInt(3), "key_traits" := JArr([JInt(1)])]))
    ensures Respond(Run(pairs, out)).code == 500
  {
    ActiveWhenMentioned(pairs.subjective, d);
    NumericTraitRaises();
    UnprintableRecordIs500(pairs, out);
  }

  /**
   * A failed subjective call never turns a successful run into a failure: replacing any
   * one dimension's outcome with a failure keeps the run successful.
   */
  lemma FailedCallKeepsSuccess(pairs: Classified, out: Outcomes, d: Dim, f: Failure)
    requires Run(pairs, out).Ok?
    ensures Run(pairs, Outcomes(e => if e == d then Err(f) else out.subjective(e), out.report)).Ok?
  {
    var out2 := Outcomes(e => if e == d then Err(f) else out.subjective(e), out.report);
    FailureKeepsLoggable(ActiveDims(pairs.subjective), out.subjective, out2.subjective, d);
  }
}

=== FILE: questions.dfy ===
/**
 * Lines 121-170 of `analyze_data`: normalising the submitted questions and splitting
 * the answered ones into objective and subjective question/answer pairs.
 */
module Questions {
  import opened Results
  import opened Text

  /** An option as submitted; every field may be missing. */
  datatype RawOption = RawOption(key: Option<string>, content: Option<string>, score: Option<int>)

  /** A question's `dimension`: one code as text, or (for subjective questions) a list of codes. */
  datatype DimValue = DimText(text: string) | DimList(items: seq<string>)

  /** A question as submitted; every field may be missing. */
  datatype RawQuestion = RawQuestion(
    id: Option<string>,
    stem: Option<string>,
    qtype: Option<string>,
    options: Option<seq<RawOption>>,
    dimension: Option<DimValue>,
    standard: Option<string>)

  datatype Opt = Opt(key: string, content: string, score: int)

  /** A question after normalisation: every field present. */
  datatype Question = Question(
    id: string,
    stem: string,
    qtype: string,
    options: seq<Opt>,
    dimension: DimValue,
    standard: string)

  datatype ObjectivePair = ObjectivePair(
    question: string,
    dimension: DimValue,
    answer: string,
    qtype: string,
    standard: string,
    options: seq<Opt>)

  datatype SubjectivePair = SubjectivePair(
    question: string,
    dimension: DimValue,
    answer: string,
    qtype: string,
    standard: string)

  const SingleChoice: string := "single_choice"

  /** The three free-text question types; every other type is scored from its options. */
  predicate IsSubjectiveType(t: string) {
    t == "subject_question" || t == "career_transition" || t == "career_choice"
  }

  /** Option `j` (counted from 0) with its defaults: key `str(j + 1)`, empty content, score 0. */
  function FormatOption(j: nat, o: RawOption): Opt {
    Opt(o.key.GetOr(NatToString(j + 1)), o.content.GetOr(""), o.score.GetOr(0))
  }

  /** Lines 129-134: every submitted option, in order, with its missing fields defaulted. */
  function FormatOptions(os: seq<RawOption>): (r: seq<Opt>)
    ensures |r| == |os|
    ensures forall j :: 0 <= j < |os| ==> r[j] == FormatOption(j, os[j])
    ensures forall j :: 0 <= j < |os| ==>
      r[j].key == (if os[j].key.Some? then os[j].key.value else NatToString(j + 1))
    ensures forall j :: 0 <= j < |os| ==> r[j].content == (if os[j].content.Some? then os[j].content.value else "")
    ensures forall j :: 0 <= j < |os| ==> r[j].score == (if os[j].score.Some? then os[j].score.value else 0)
  {
    seq(|os|, j requires 0 <= j < |os| => FormatOption(j, os[j]))
  }

  /** Question `i` (counted from 0) with its defaults; only a single-choice question keeps options. */
  function FormatQuestion(i: nat, q: RawQuestion): (f: Question)
    ensures f.options != [] ==> f.qtype == SingleChoice && q.options.Some?
    ensures q.qtype.None? ==> f.qtype == SingleChoice
    ensures q.id.None? ==> f.id == NatToString(i + 1)
    ensures q.id.Some? ==> f.id == q.id.value
    ensures q.qtype.Some? ==> f.qtype == q.qtype.value
    ensures f.stem == (if q.stem.Some? then q.stem.value else "")
    ensures f.dimension == (if q.dimension.Some? then q.dimension.value else DimText(""))
    ensures f.standard == (if q.standard.Some? then q.standard.value else "")
    ensures f.qtype == SingleChoice && q.options.Some? ==> f.options == FormatOptions(q.options.value)
  {
    var qtype := q.qtype.GetOr(SingleChoice);
    Question(
      q.id.GetOr(NatToString(i + 1)),
      q.stem.GetOr(""),
      qtype,
      if qtype == SingleChoice && q.options.Some? then FormatOptions(q.options.value) else [],
      q.dimension.GetOr(DimText("")),
      q.standard.GetOr(""))
  }

  function FormatQuestions(qs: seq<RawQuestion>): (r: seq<Question>)
    ensures |r| == |qs|
    ensures forall i :: 0 <= i < |qs| ==> r[i] == FormatQuestion(i, qs[i])
  {
    seq(|qs|, i requires 0 <= i < |qs| => FormatQuestion(i, qs[i]))
  }

  /** Questions without a submitted id get the ids "1", "2", ...: never two alike. */
  lemma DefaultIdsDistinct(qs: seq<RawQuestion>, i: nat, j: nat)
    requires i < |qs| && j < |qs| && i != j
    requires qs[i].id.None? && qs[j].id.None?
    ensures FormatQuestions(qs)[i].id != FormatQuestions(qs)[j].id
  {
    NatToStringInjective(i + 1, j + 1);
  }

  datatype Classified = Classified(objective: seq<ObjectivePair>, subjective: seq<SubjectivePair>)

  /** Lines 152-170 for one question: an answered question becomes one pair, filed by its type. */
  function FileQuestion(q: Question, answers: map<string, string>): (r: Classified)
    ensures |r.objective| + |r.subjective| == (if q.id in answers then 1 else 0)
    ensures r.objective != [] ==>
      && !IsSubjectiveType(q.qtype)
      && r.objective == [ObjectivePair(q.stem, q.dimension, answers[q.id], q.qtype, q.standard, q.options)]
    ensures r.subjective != [] ==>
      && IsSubjectiveType(q.qtype)
      && r.subjective == [SubjectivePair(q.stem, q.dimension, answers[q.id], q.qtype, q.standard)]
  {
    if q.id !in answers then Classified([], [])
    else if IsSubjectiveType(q.qtype) then
      Classified([], [SubjectivePair(q.stem, q.dimension, answers[q.id], q.qtype, q.standard)])
    else
      Classified([ObjectivePair(q.stem, q.dimension, answers[q.id], q.qtype, q.standard, q.options)], [])
  }

  /**
   * Lines 149-170: one pass over the questions, appending each filed pair to its list.
   * Exactly the answered questions become pairs: unanswered ones are dropped, none is lost.
   */
  function Classify(qs: seq<Question>, answers: map<string, string>): (r: Classified)
    ensures |r.objective| + |r.subjective| == |Answered(qs, answers)|
  {
    if |qs| == 0 then Classified([], [])
    else
      var first := FileQuestion(qs[0], answers);
      var rest := Classify(qs[1..], answers);
      Classified(first.objective + rest.objective, first.subjective + rest.subjective)
  }

  /** The three subjective types go to the subjective list, every other type to the objective list. */
  lemma {:induction false} ClassifyByType(qs: seq<Question>, answers: map<string, string>)
    ensures forall p <- Classify(qs, answers).objective :: !IsSubjectiveType(p.qtype)
    ensures forall p <- Classify(qs, answers).subjective :: IsSubjectiveType(p.qtype)
  {
    if |qs| > 0 {
      ClassifyByType(qs[1..], answers);
    }
  }

  /**
   * Each question is filed on its own and relative order is kept: classifying two runs
   * of questions one after the other is classifying their concatenation. With
   * FileQuestion this determines the whole result.
   */
  lemma {:induction false} ClassifyConcat(a: seq<Question>, b: seq<Question>, answers: map<string, string>)
    ensures Classify(a + b, answers).objective == Classify(a, answers).objective + Classify(b, answers).objective
    ensures Classify(a + b, answers).subjective == Classify(a, answers).subjective + Classify(b, answers).subjective
  {
    if |a| > 0 {
      var ab := a + b;
      assert ab[0] == a[0];
      assert ab[1..] == a[1..] + b;
      ClassifyConcat(a[1..], b, answers);
      ClassifyStep(ab, answers);
      ClassifyStep(a, answers);
      var f := FileQuestion(a[0], answers);
      var x := Classify(a[1..], answers);
      var y := Classify(b, answers);
      AppendAssoc(f.objective, x.objective, y.objective);
      AppendAssoc(f.subjective, x.subjective, y.subjective);
    } else {
      assert a + b == b;
    }
  }

  /** The first question's pairs come before the rest's. */
  lemma ClassifyStep(qs: seq<Question>, answers: map<string, string>)
    requires |qs| > 0
    ensures Classify(qs, answers).objective == FileQuestion(qs[0], answers).objective + Classify(qs[1..], answers).objective
    ensures Classify(qs, answers).subjective == FileQuestion(qs[0], answers).subjective + Classify(qs[1..], answers).subjective
  {
  }

  /** The answered questions, in order. */
  function Answered(qs: seq<Question>, answers: map<string, string>): (r: seq<Question>)
    ensures forall q <- r :: q.id in answers
  {
    if |qs| == 0 then []
    else (if qs[0].id in answers then [qs[0]] else []) + Answered(qs[1..], answers)
  }
}

=== FILE: reconcile.dfy ===
/**
 * Lines 299-306 and 394-406 of `analyze_data`: adding objective and subjective scores,
 * and overwriting the narrative report's scores with those totals.
 */
module Reconciliation {
  import opened Results
  import opened JsonValues
  import opened Dimensions

  /**
   * Lines 300-302: `total[d] = objective[d] + subjective[d]` for the five dimensions. The
   * subjective value is whatever the service returned; a value Python cannot add to an
   * integer raises.
   */
  function Totals(objective: map<Dim, int>, subjective: map<Dim, Json>): (r: Result<map<Dim, int>, Failure>)
    requires Total(objective) && Total(subjective)
    ensures r.Ok? <==> forall d :: NumericValue(subjective[d]).Some?
    ensures r.Ok? ==> Total(r.value)
    ensures r.Ok? ==> forall d :: r.value[d] == objective[d] + NumericValue(subjective[d]).value
    ensures r.Err? ==> r.error == ShapeMismatch
  {
    if forall d :: NumericValue(subjective[d]).Some? then
      Ok(map d: Dim | d in objective :: objective[d] + NumericValue(subjective[d]).value)
    else Err(ShapeMismatch)
  }

  /** A per-dimension map as the JSON object the report carries (keys "R" ... "Y"). */
  function DimObject(m: map<Dim, Json>): Json {
    JObj(DimFields(m, AllDims))
  }

  /** The fields for the dimensions `ds` of `m`, written in order. */
  function DimFields(m: map<Dim, Json>, ds: seq<Dim>): map<string, Json>
    decreases |ds|
  {
    if ds == [] then map[]
    else
      var rest := DimFields(m, ds[1..]);
      if ds[0] in m then rest[Key(ds[0]) := m[ds[0]]] else rest
  }

  lemma {:induction false} DimFieldsSpec(m: map<Dim, Json>, ds: seq<Dim>)
    ensures forall k :: k in DimFields(m, ds) <==> (exists d :: d in ds && d in m && Key(d) == k)
    ensures forall d :: d in ds && d in m ==> DimFields(m, ds)[Key(d)] == m[d]
    decreases |ds|
  {
    if ds != [] {
      DimFieldsSpec(m, ds[1..]);
      forall d1, d2 ensures Key(d1) == Key(d2) ==> d1 == d2 { KeyInjective(d1, d2); }
      forall d | d in ds ensures d == ds[0] || d in ds[1..] {
        var i :| 0 <= i < |ds| && ds[i] == d;
        if i > 0 { assert ds[1..][i - 1] == d; }
      }
    }
  }

  /** The object has exactly one field per dimension of `m`, named by its key and holding its value. */
  lemma DimObjectFields(m: map<Dim, Json>)
    ensures DimObject(m).JObj?
    ensures forall d :: d in m <==> Key(d) in DimObject(m).fields
    ensures forall d :: d in m ==> DimObject(m).fields[Key(d)] == m[d]
    ensures forall k :: k in DimObject(m).fields ==> ParseDim(k).Some?
  {
    DimFieldsSpec(m, AllDims);
    var f := DimObject(m).fields;
    forall d ensures d in AllDims && ParseDim(Key(d)) == Some(d) { OneOfFive(d); }
    forall d | Key(d) in f
      ensures d in m
    {
      var e :| e in AllDims && e in m && Key(e) == Key(d);
      assert ParseDim(Key(e)) == Some(e);
    }
    forall k | k in f
      ensures ParseDim(k).Some?
    {
      var d :| d in AllDims && d in m && Key(d) == k;
      assert ParseDim(Key(d)) == Some(d);
    }
  }

  /** An integer score map as the JSON object the report carries. */
  function IntObject(m: map<Dim, int>): Json {
    JObj(IntFields(m, AllDims))
  }

  function IntFields(m: map<Dim, int>, ds: seq<Dim>): map<string, Json>
    decreases |ds|
  {
    if ds == [] then map[]
    else
      var rest := IntFields(m, ds[1..]);
      if ds[0] in m then rest[Key(ds[0]) := JInt(m[ds[0]])] else rest
  }

  /** The integer object is the JSON object of the same scores. */
  lemma {:induction false} IntFieldsAsJson(m: map<Dim, int>, ds: seq<Dim>)
    ensures IntFields(m, ds) == DimFields(map d | d in m :: JInt(m[d]), ds)
    decreases |ds|
  {
    if ds != [] {
      IntFieldsAsJson(m, ds[1..]);
    }
  }

  lemma IntObjectFields(m: map<Dim, int>)
    ensures IntObject(m).JObj?
    ensures forall d :: d in m <==> Key(d) in IntObject(m).fields
    ensures forall d :: d in m ==> IntObject(m).fields[Key(d)] == JInt(m[d])
    ensures forall k :: k in IntObject(m).fields ==> ParseDim(k).Some?
  {
    IntFieldsAsJson(m, AllDims);
    DimObjectFields(map d | d in m :: JInt(m[d]));
  }

  /** Lines 401-403 for one entry: a recognised dimension's detail gets the total as its score. */
  function OverwriteEntry(key: string, detail: Json, totals: map<Dim, int>): Json
    requires Total(totals)
  {
    match ParseDim(key)
    case None => detail
    case Some(d) =>
      match detail
      case JObj(f) => JObj(f["score" := JInt(totals[d])])
      case _ => detail
  }

  /** Lines 400-403 over the whole `dimensions` object. */
  function OverwriteScores(entries: map<string, Json>, totals: map<Dim, int>): (updated: map<string, Json>)
    requires Total(totals) && !BadEntry(entries)
    ensures updated.Keys == entries.Keys
    ensures forall k :: k in entries && ParseDim(k).None? ==> updated[k] == entries[k]
    ensures forall k :: k in entries && ParseDim(k).Some? ==>
      && updated[k].JObj?
      && updated[k].fields == entries[k].fields["score" := JInt(totals[ParseDim(k).value])]
  {
    map k | k in entries :: OverwriteEntry(k, entries[k], totals)
  }

  /** Assigning `dim_detail["score"]` raises on a recognised entry that is not an object. */
  predicate BadEntry(entries: map<string, Json>) {
    exists k :: k in entries && ParseDim(k).Some? && !entries[k].JObj?
  }

  /**
   * Lines 399-403 run without raising: `dimensions`, when present, is an object whose
   * recognised entries are objects.
   */
  predicate Reconcilable(fields: map<string, Json>) {
    "dimensions" in fields ==> fields["dimensions"].JObj? && !BadEntry(fields["dimensions"].fields)
  }

  /** The names of the four fields the pipeline attaches to every successful report. */
  const AttachedKeys: set<string> := {"objective_scores", "subjective_scores", "dimension_scores", "subjective_analysis"}

  /**
   * Lines 395-397 and 406: the three score maps and the subjective analysis, attached over
   * whatever the report had under those names; every other field is kept.
   */
  function Attach(fields: map<string, Json>, objective: Json, subjective: Json, totals: Json, analysis: Json)
    : (a: map<string, Json>)
    ensures a.Keys == fields.Keys + AttachedKeys
    ensures forall k :: k in fields && k !in AttachedKeys ==> a[k] == fields[k]
    ensures a["objective_scores"] == objective
    ensures a["subjective_scores"] == subjective
    ensures a["dimension_scores"] == totals
    ensures a["subjective_analysis"] == analysis
  {
    fields["objective_scores" := objective]
          ["subjective_scores" := subjective]
          ["dimension_scores" := totals]
          ["subjective_analysis" := analysis]
  }

  /**
   * Lines 394-406 on a report object that does not raise: the four attached fields hold
   * the given values, every recognised `dimensions` entry has its score replaced by its
   * total, and nothing else changes.
   */
  function ReconcileFields(fields: map<string, Json>, totals: map<Dim, int>,
                           objectiveObj: Json, subjectiveObj: Json, totalsObj: Json, analysisObj: Json)
    : (r: map<string, Json>)
    requires Total(totals) && Reconcilable(fields)
    ensures r.Keys == fields.Keys + AttachedKeys
    ensures forall k :: k in fields && k !in AttachedKeys && k != "dimensions" ==> r[k] == fields[k]
    ensures && r["objective_scores"] == objectiveObj && r["subjective_scores"] == subjectiveObj
            && r["dimension_scores"] == totalsObj && r["subjective_analysis"] == analysisObj
    ensures "dimensions" in fields ==>
      var before := fields["dimensions"].fields;
      && r["dimensions"].JObj?
      && r["dimensions"].fields.Keys == before.Keys
      && (forall k :: k in before && ParseDim(k).None? ==> r["dimensions"].fields[k] == before[k])
      && (forall k :: k in before && ParseDim(k).Some? ==>
            && r["dimensions"].fields[k].JObj?
            && r["dimensions"].fields[k].fields == before[k].fields["score" := JInt(totals[ParseDim(k).value])])
  {
    // The attached names never include "dimensions", so overwriting before attaching
    // gives the same report as `analyze_data`'s attach-then-overwrite order.
    if "dimensions" in fields then
      var updated := OverwriteScores(fields["dimensions"].fields, totals);
      Attach(fields["dimensions" := JObj(updated)], objectiveObj, subjectiveObj, totalsObj, analysisObj)
    else
      Attach(fields, objectiveObj, subjectiveObj, totalsObj, analysisObj)
  }

  /**
   * Lines 394-406: reconciliation raises exactly when the report is not an object, or its
   * `dimensions` is not an object, or a recognised entry of it is not an object.
   */
  function Reconcile(report: Json, objective: map<Dim, int>, subjective: map<Dim, Json>,
                     totals: map<Dim, int>, analysis: map<Dim, Json>): (r: Result<Json, Failure>)
    requires Total(objective) && Total(subjective) && Total(totals)
    ensures r.Err? <==>
      || !report.JObj?
      || ("dimensions" in report.fields && !report.fields["dimensions"].JObj?)
      || ("dimensions" in report.fields && report.fields["dimensions"].JObj? && BadEntry(report.fields["dimensions"].fields))
    ensures r.Err? ==> r.error == ShapeMismatch
    ensures r.Ok? ==> r.value.JObj? && r.value.fields.Keys == report.fields.Keys + AttachedKeys
  {
    if !report.JObj? || !Reconcilable(report.fields) then Err(ShapeMismatch)
    else
      Ok(JObj(ReconcileFields(report.fields, totals, IntObject(objective), DimObject(subjective),
                              IntObject(totals), DimObject(analysis))))
  }

  /**
   * A reconciled report holds the computed maps under the attached names, keeps every
   * other field, and differs in `dimensions` only in the scores of recognised entries.
   */
  lemma ReconciledReport(report: Json, objective: map<Dim, int>, subjective: map<Dim, Json>,
                         totals: map<Dim, int>, analysis: map<Dim, Json>)
    requires Total(objective) && Total(subjective) && Total(totals)
    requires Reconcile(report, objective, subjective, totals, analysis).Ok?
    ensures var r := Reconcile(report, objective, subjective, totals, analysis).value;
      && (forall k :: k in report.fields && k !in AttachedKeys && k != "dimensions" ==> r.fields[k] == report.fields[k])
      && r.fields["objective_scores"] == IntObject(objective)
      && r.fields["subjective_scores"] == DimObject(subjective)
      && r.fields["dimension_scores"] == IntObject(totals)
      && r.fields["subjective_analysis"] == DimObject(analysis)
    ensures var r := Reconcile(report, objective, subjective, totals, analysis).value;
      "dimensions" in report.fields ==>
        var before := report.fields["dimensions"].fields;
        && r.fields["dimensions"].JObj?
        && r.fields["dimensions"].fields.Keys == before.Keys
        && (forall k :: k in before && ParseDim(k).None? ==> r.fields["dimensions"].fields[k] == before[k])
        && (forall k :: k in before && ParseDim(k).Some? ==>
              && r.fields["dimensions"].fields[k].JObj?
              && r.fields["dimensions"].fields[k].fields == before[k].fields["score" := JInt(totals[ParseDim(k).value])])
  {
  }

  /** The reconciled report's view of one dimension, as a 200 response carries it. */
  predicate ShowsDimension(data: Json, d: Dim, objective: int, subjective: Json, total: int) {
    && data.JObj?
    && "objective_scores" in data.fields && data.fields["objective_scores"].JObj?
    && Key(d) in data.fields["objective_scores"].fields
    && data.fields["objective_scores"].fields[Key(d)] == JInt(objective)
    && "subjective_scores" in data.fields && data.fields["subjective_scores"].JObj?
    && Key(d) in data.fields["subjective_scores"].fields
    && data.fields["subjective_scores"].fields[Key(d)] == subjective
    && "dimension_scores" in data.fields && data.fields["dimension_scores"].JObj?
    && Key(d) in data.fields["dimension_scores"].fields
    && data.fields["dimension_scores"].fields[Key(d)] == JInt(total)
    && ("dimensions" in data.fields ==>
          && data.fields["dimensions"].JObj?
          && (Key(d) in data.fields["dimensions"].fields ==>
                && data.fields["dimensions"].fields[Key(d)].JObj?
                && "score" in data.fields["dimensions"].fields[Key(d)].fields
                && data.fields["dimensions"].fields[Key(d)].fields["score"] == JInt(total)))
  }

  /**
   * A report holding the three score objects, whose recognised `dimensions` entries score
   * the totals, shows those scores for every dimension.
   */
  lemma ShowsDimensionFromFields(data: Json, objective: map<Dim, int>, subjective: map<Dim, Json>,
                                 totals: map<Dim, int>, d: Dim)
    requires Total(objective) && Total(subjective) && Total(totals)
    requires data.JObj?
    requires "objective_scores" in data.fields && data.fields["objective_scores"] == IntObject(objective)
    requires "subjective_scores" in data.fields && data.fields["subjective_scores"] == DimObject(subjective)
    requires "dimension_scores" in data.fields && data.fields["dimension_scores"] == IntObject(totals)
    requires "dimensions" in data.fields ==>
      && data.fields["dimensions"].JObj?
      && forall k :: k in data.fields["dimensions"].fields && ParseDim(k).Some? ==>
           && data.fields["dimensions"].fields[k].JObj?
           && "score" in data.fields["dimensions"].fields[k].fields
           && data.fields["dimensions"].fields[k].fields["score"] == JInt(totals[ParseDim(k).value])
    ensures ShowsDimension(data, d, objective[d], subjective[d], totals[d])
  {
    IntObjectFields(objective);
    DimObjectFields(subjective);
    IntObjectFields(totals);
    if "dimensions" in data.fields && Key(d) in data.fields["dimensions"].fields {
      assert ParseDim(Key(d)) == Some(d) by { KeyInjective(ParseDim(Key(d)).value, d); }
    }
  }

  /** A reconciled report shows, for every dimension, the three scores it was given. */
  lemma ReconciledDimension(report: Json, objective: map<Dim, int>, subjective: map<Dim, Json>,
                            totals: map<Dim, int>, analysis: map<Dim, Json>, d: Dim)
    requires Total(objective) && Total(subjective) && Total(totals)
    requires Reconcile(report, objective, subjective, totals, analysis).Ok?
    ensures ShowsDimension(Reconcile(report, objective, subjective, totals, analysis).value,
                           d, objective[d], subjective[d], totals[d])
  {
    var data := Reconcile(report, objective, subjective, totals, analysis).value;
    ReconciledReport(report, objective, subjective, totals, analysis);
    ShowsDimensionFromFields(data, objective, subjective, totals, d);
  }

  /** Overwriting with the scores an object already shows changes nothing. */
  lemma OverwriteShown(entries: map<string, Json>, totals: map<Dim, int>)
    requires Total(totals) && !BadEntry(entries)
    requires forall k :: k in entries && ParseDim(k).Some? ==>
      "score" in entries[k].fields && entries[k].fields["score"] == JInt(totals[ParseDim(k).value])
    ensures OverwriteScores(entries, totals) == entries
  {
    var updated := OverwriteScores(entries, totals);
    forall k | k in entries ensures updated[k] == entries[k] {
      if ParseDim(k).Some? {
        assert updated[k].fields == entries[k].fields;
      }
    }
  }

  /** Attaching the values a map already holds under the attached names changes nothing. */
  lemma AttachShown(fields: map<string, Json>, objective: Json, subjective: Json, totals: Json, analysis: Json)
    requires AttachedKeys <= fields.Keys
    requires fields["objective_scores"] == objective && fields["subjective_scores"] == subjective
    requires fields["dimension_scores"] == totals && fields["subjective_analysis"] == analysis
    ensures Attach(fields, objective, subjective, totals, analysis) == fields
  {
  }

  /** Fields that already hold what reconciliation writes are left as they are. */
  lemma ReconcileFieldsShown(fields: map<string, Json>, totals: map<Dim, int>,
                             objectiveObj: Json, subjectiveObj: Json, totalsObj: Json, analysisObj: Json)
    requires Total(totals) && Reconcilable(fields)
    requires AttachedKeys <= fields.Keys
    requires fields["objective_scores"] == objectiveObj && fields["subjective_scores"] == subjectiveObj
    requires fields["dimension_scores"] == totalsObj && fields["subjective_analysis"] == analysisObj
    requires "dimensions" in fields ==>
      forall k :: k in fields["dimensions"].fields && ParseDim(k).Some? ==>
        && "score" in fields["dimensions"].fields[k].fields
        && fields["dimensions"].fields[k].fields["score"] == JInt(totals[ParseDim(k).value])
    ensures ReconcileFields(fields, totals, objectiveObj, subjectiveObj, totalsObj, analysisObj) == fields
  {
    if "dimensions" in fields {
      var entries := fields["dimensions"].fields;
      OverwriteShown(entries, totals);
      assert fields["dimensions" := JObj(entries)] == fields;
    }
    AttachShown(fields, objectiveObj, subjectiveObj, totalsObj, analysisObj);
  }

  /** Reconciling an already reconciled report changes nothing. */
  lemma ReconcileIdempotent(report: Json, objective: map<Dim, int>, subjective: map<Dim, Json>,
                            totals: map<Dim, int>, analysis: map<Dim, Json>)
    requires Total(objective) && Total(subjective) && Total(totals)
    requires Reconcile(report, objective, subjective, totals, analysis).Ok?
    ensures var once := Reconcile(report, objective, subjective, totals, analysis).value;
      Reconcile(once, objective, subjective, totals, analysis) == Ok(once)
  {
    var once := Reconcile(report, objective, subjective, totals, analysis).value;
    ReconciledEntriesShowTotals(report, objective, subjective, totals, analysis);
    ReconcileFieldsShown(once.fields, totals, IntObject(objective), DimObject(subjective),
                         IntObject(totals), DimObject(analysis));
  }

  /** A reconciled report can be reconciled again, and its recognised entries score the totals. */
  lemma ReconciledEntriesShowTotals(report: Json, objective: map<Dim, int>, subjective: map<Dim, Json>,
                                    totals: map<Dim, int>, analysis: map<Dim, Json>)
    requires Total(objective) && Total(subjective) && Total(totals)
    requires Reconcile(report, objective, subjective, totals, analysis).Ok?
    ensures var once := Reconcile(report, objective, subjective, totals, analysis).value;
      && Reconcilable(once.fields)
      && ("dimensions" in once.fields ==>
            forall k :: k in once.fields["dimensions"].fields && ParseDim(k).Some? ==>
              && "score" in once.fields["dimensions"].fields[k].fields
              && once.fields["dimensions"].fields[k].fields["score"] == JInt(totals[ParseDim(k).value]))
  {
    ReconciledReport(report, objective, subjective, totals, analysis);
  }
}

=== FILE: results.dfy ===
/** Option and Result values: the model's replacement for Python's `None` and raised exceptions. */
module Results {

  datatype Option<+T> = None | Some(value: T) {

    /** The value, or `default` when absent (Python's `d.get(k, default)`). */
    function GetOr(default: T): T {
      match this
      case Some(v) => v
      case None => default
    }
  }

  /** The outcome of a step that may raise: `Ok` with its value or `Err` with the cause. */
  datatype Result<+T, +E> = Ok(value: T) | Err(error: E)
}

=== FILE: subjective.dfy ===
/**
 * Lines 202-297 of `analyze_data`: fanning subjective answers out to the dimensions they
 * name, and scoring each populated dimension with one service call and a fixed fallback.
 */
module Subjective {
  import opened Results
  import opened JsonValues
  import opened Dimensions
  import opened Questions
  import opened Extraction
  import opened Text

  /** The `{question, answer, standard}` copy a dimension receives. */
  datatype Response = Response(question: string, answer: string, standard: string)

  function ResponseOf(p: SubjectivePair): Response {
    Response(p.question, p.answer, p.standard)
  }

  /** How many times a `dimension` value names `d`. */
  function Mentions(v: DimValue, d: Dim): nat {
    match v
    case DimText(s) => if s == Key(d) then 1 else 0
    case DimList(items) => multiset(items)[Key(d)]
  }

  /** Lines 220-222: the recognised codes of a list, in order, repeats kept. */
  function RecognisedDims(items: seq<string>): (r: seq<Dim>)
    ensures |r| <= |items|
    ensures forall d :: multiset(r)[d] == multiset(items)[Key(d)]
  {
    if |items| == 0 then []
    else
      var rest := RecognisedDims(items[1..]);
      MentionsSplit(items);
      match ParseDim(items[0])
      case Some(d0) =>
        assert forall d :: Key(d) == items[0] <==> d == d0 by {
          forall d ensures Key(d) == items[0] <==> d == d0 { KeyInjective(d, d0); }
        }
        [d0] + rest
      case None => rest
  }

  lemma MentionsSplit(items: seq<string>)
    requires |items| > 0
    ensures forall d :: multiset(items)[Key(d)] == (if items[0] == Key(d) then 1 else 0) + multiset(items[1..])[Key(d)]
  {
    assert items == [items[0]] + items[1..];
  }

  /** Lines 213-226: the dimensions one answer is filed under. */
  function DimsOf(v: DimValue): (r: seq<Dim>)
    ensures forall d :: multiset(r)[d] == Mentions(v, d)
  {
    match v
    case DimText(s) =>
      (match ParseDim(s) case Some(d) => [d] case None => [])
    case DimList(items) => RecognisedDims(items)
  }

  function Copies(x: Response, n: nat): seq<Response> {
    if n == 0 then [] else [x] + Copies(x, n - 1)
  }

  /** The reference: the copies dimension `d` receives from each answer, in input order. */
  function ResponsesFor(pairs: seq<SubjectivePair>, d: Dim): seq<Response> {
    if |pairs| == 0 then []
    else Copies(ResponseOf(pairs[0]), Mentions(pairs[0].dimension, d)) + ResponsesFor(pairs[1..], d)
  }

  function NoResponses(): (m: map<Dim, seq<Response>>)
    ensures Total(m)
  {
    var m := map[R := [], E := [], A := [], D := [], Y := []];
    assert Total(m) by { forall d: Dim ensures d in m { OneOfFive(d); } }
    m
  }

  /** Lines 229-234: append one copy of `x` under each dimension of `ds`. */
  function AddCopies(acc: map<Dim, seq<Response>>, ds: seq<Dim>, x: Response): (r: map<Dim, seq<Response>>)
    requires Total(acc)
    ensures Total(r)
  {
    if |ds| == 0 then acc else AddCopies(acc[ds[0] := acc[ds[0]] + [x]], ds[1..], x)
  }

  /**
   * Lines 212-234: the loop over answers, from a running map. Every dimension gains,
   * after what it already held, the reference copies from each answer in input order.
   */
  function GroupFrom(acc: map<Dim, seq<Response>>, pairs: seq<SubjectivePair>): (r: map<Dim, seq<Response>>)
    requires Total(acc)
    ensures Total(r)
    ensures forall d :: r[d] == acc[d] + ResponsesFor(pairs, d)
  {
    if |pairs| == 0 then acc
    else
      GroupFromStep(acc, pairs);
      GroupFrom(AddCopies(acc, DimsOf(pairs[0].dimension), ResponseOf(pairs[0])), pairs[1..])
  }

  /** Filing the first answer, then the rest, gives each dimension the reference copies. */
  lemma GroupFromStep(acc: map<Dim, seq<Response>>, pairs: seq<SubjectivePair>)
    requires Total(acc) && |pairs| > 0
    ensures forall d :: AddCopies(acc, DimsOf(pairs[0].dimension), ResponseOf(pairs[0]))[d] + ResponsesFor(pairs[1..], d)
                     == acc[d] + ResponsesFor(pairs, d)
  {
    forall d
      ensures AddCopies(acc, DimsOf(pairs[0].dimension), ResponseOf(pairs[0]))[d] + ResponsesFor(pairs[1..], d)
           == acc[d] + ResponsesFor(pairs, d)
    {
      GroupFromStepAt(acc, pairs, d);
    }
  }

  lemma GroupFromStepAt(acc: map<Dim, seq<Response>>, pairs: seq<SubjectivePair>, d: Dim)
    requires Total(acc) && |pairs| > 0
    ensures AddCopies(acc, DimsOf(pairs[0].dimension), ResponseOf(pairs[0]))[d] + ResponsesFor(pairs[1..], d)
         == acc[d] + ResponsesFor(pairs, d)
  {
    var x := ResponseOf(pairs[0]);
    var c := Copies(x, Mentions(pairs[0].dimension, d));
    AddCopiesSpec(acc, DimsOf(pairs[0].dimension), x);
    assert AddCopies(acc, DimsOf(pairs[0].dimension), x)[d] == acc[d] + c;
    assert ResponsesFor(pairs, d) == c + ResponsesFor(pairs[1..], d);
    AppendAssoc(acc[d], c, ResponsesFor(pairs[1..], d));
  }

  lemma {:induction false} AddCopiesSpec(acc: map<Dim, seq<Response>>, ds: seq<Dim>, x: Response)
    requires Total(acc)
    ensures forall d :: AddCopies(acc, ds, x)[d] == acc[d] + Copies(x, multiset(ds)[d])
  {
    if |ds| > 0 {
      var next := acc[ds[0] := acc[ds[0]] + [x]];
      AddCopiesSpec(next, ds[1..], x);
      forall d
        ensures AddCopies(acc, ds, x)[d] == acc[d] + Copies(x, multiset(ds)[d])
      {
        AddCopiesStep(acc, ds, x, d, AddCopies(next, ds[1..], x)[d]);
      }
    }
  }

  /** One step of AddCopiesSpec, for one dimension. */
  lemma {:induction false} AddCopiesStep(acc: map<Dim, seq<Response>>, ds: seq<Dim>, x: Response, d: Dim, later: seq<Response>)
    requires Total(acc) && |ds| > 0
    requires later == acc[ds[0] := acc[ds[0]] + [x]][d] + Copies(x, multiset(ds[1..])[d])
    requires AddCopies(acc[ds[0] := acc[ds[0]] + [x]], ds[1..], x)[d] == later
    ensures AddCopies(acc, ds, x)[d] == acc[d] + Copies(x, multiset(ds)[d])
  {
    var n := multiset(ds[1..])[d];
    HeadCount(ds, d);
    if d == ds[0] {
      assert Copies(x, n + 1) == [x] + Copies(x, n);
      AppendAssoc(acc[d], [x], Copies(x, n));
    }
  }

  /** A sequence's first element adds one to its own count and nothing to the others'. */
  lemma HeadCount(ds: seq<Dim>, d: Dim)
    requires |ds| > 0
    ensures multiset(ds)[d] == multiset(ds[1..])[d] + (if d == ds[0] then 1 else 0)
  {
    assert ds == [ds[0]] + ds[1..];
    assert multiset(ds) == multiset{ds[0]} + multiset(ds[1..]);
  }

  /**
   * Lines 209-234: each recognised dimension named by an answer receives one copy of it
   * per mention, in input order; dimensions no answer names stay empty.
   */
  function Group(pairs: seq<SubjectivePair>): (r: map<Dim, seq<Response>>)
    ensures Total(r)
    ensures forall d :: r[d] == ResponsesFor(pairs, d)
  {
    GroupFrom(NoResponses(), pairs)
  }

  /** Lines 237 and 246-249: the dimensions with at least one response, in R, E, A, D, Y order. */
  function NonEmptyAmong(groups: map<Dim, seq<Response>>, ds: seq<Dim>): (r: seq<Dim>)
    requires Total(groups)
    ensures forall d :: d in r <==> d in ds && groups[d] != []
    ensures |r| <= |ds|
  {
    if |ds| == 0 then []
    else (if groups[ds[0]] != [] then [ds[0]] else []) + NonEmptyAmong(groups, ds[1..])
  }

  /**
   * The dimensions that get a scoring call: exactly those with responses, each once.
   * With no subjective answers at all, none (`analyze_data` skips the whole step).
   */
  function ActiveDims(pairs: seq<SubjectivePair>): (r: seq<Dim>)
    ensures forall d :: d in r <==> ResponsesFor(pairs, d) != []
    ensures |r| <= 5
  {
    if |pairs| == 0 then []
    else
      var groups := Group(pairs);
      assert forall d :: d in AllDims by { forall d: Dim ensures d in AllDims { OneOfFive(d); } }
      NonEmptyAmong(groups, AllDims)
  }

  predicate Mentioned(pairs: seq<SubjectivePair>, d: Dim) {
    exists i :: 0 <= i < |pairs| && Mentions(pairs[i].dimension, d) > 0
  }

  lemma {:induction false} ResponsesWhenMentioned(pairs: seq<SubjectivePair>, d: Dim)
    ensures ResponsesFor(pairs, d) != [] <==> Mentioned(pairs, d)
  {
    if |pairs| > 0 {
      ResponsesWhenMentioned(pairs[1..], d);
      var n := Mentions(pairs[0].dimension, d);
      assert Copies(ResponseOf(pairs[0]), n) != [] <==> n > 0;
      if Mentioned(pairs[1..], d) {
        var i :| 0 <= i < |pairs| - 1 && Mentions(pairs[1..][i].dimension, d) > 0;
        assert pairs[i + 1] == pairs[1..][i];
      }
      if Mentioned(pairs, d) && n == 0 {
        var i :| 0 <= i < |pairs| && Mentions(pairs[i].dimension, d) > 0;
        assert pairs[1..][i - 1] == pairs[i];
      }
    }
  }

  /** A dimension is scored exactly when some answer names it. */
  lemma ActiveWhenMentioned(pairs: seq<SubjectivePair>, d: Dim)
    ensures d in ActiveDims(pairs) <==> Mentioned(pairs, d)
  {
    ResponsesWhenMentioned(pairs, d);
  }

  // ---------------------------------------------------------------------------
  // One call per populated dimension (lines 282-297)
  // ---------------------------------------------------------------------------

  const FailurePrefix: string := "分析失败: "

  /** Lines 292-296: the record stored for a dimension whose scoring raised. */
  function FallbackRecord(f: Failure): Json {
    JObj(map["analysis" := JStr(FailurePrefix + Describe(f)), "score" := JInt(2), "key_traits" := JArr([])])
  }

  /** What one dimension's call leaves behind: its analysis record, and the score written (if any). */
  datatype DimOutcome = DimOutcome(analysis: Json, score: Option<Json>)

  /**
   * Lines 282-297. A reply object is kept and its `score` (if any) is taken uncorrected.
   * Any raise falls back to score 2. That covers a failed call, which includes a number,
   * boolean or null reply (it raises at line 93) and a list or text reply holding
   * "dimensions" (it raises at line 95). It also covers any other list or text reply,
   * which raises at line 288 if it holds "score" and at line 289 if not, inside the same try.
   */
  function ScoreOne(outcome: Result<Json, Failure>): (r: DimOutcome)
    ensures outcome.Ok? && outcome.value.JObj? ==>
      r.analysis == outcome.value && r.score == EntryScore(outcome.value)
    ensures !(outcome.Ok? && outcome.value.JObj?) ==>
      && r.score == Some(JInt(2))
      && r.analysis.JObj?
      && r.analysis.fields.Keys == {"analysis", "score", "key_traits"}
      && r.analysis.fields["score"] == JInt(2)
      && r.analysis.fields["key_traits"] == JArr([])
    ensures outcome.Err? ==> r.analysis.fields["analysis"] == JStr(FailurePrefix + Describe(outcome.error))
    ensures outcome.Ok? && !outcome.value.JObj? ==>
      r.analysis.fields["analysis"] == JStr(FailurePrefix + Describe(ShapeMismatch))
  {
    match outcome
    case Err(f) => DimOutcome(FallbackRecord(f), Some(JInt(2)))
    case Ok(v) =>
      match v
      case JObj(fields) => DimOutcome(v, if "score" in fields then Some(fields["score"]) else None)
      case _ => DimOutcome(FallbackRecord(ShapeMismatch), Some(JInt(2)))
  }

  /** `subjective_analysis` and `subjective_scores` as the loop leaves them. */
  datatype SubjectiveState = SubjectiveState(analysis: map<Dim, Json>, scores: map<Dim, Json>)

  /** The score one dimension ends with: what its call wrote, else the initial 0. */
  function FinalScore(o: DimOutcome): Json {
    o.score.GetOr(JInt(0))
  }

  /** Lines 201-202: no record yet and every subjective score 0. */
  function InitialState(): (st: SubjectiveState)
    ensures Total(st.scores) && st.analysis == map[]
    ensures forall d :: st.scores[d] == JInt(0)
  {
    var scores := map[R := JInt(0), E := JInt(0), A := JInt(0), D := JInt(0), Y := JInt(0)];
    assert Total(scores) by { forall d: Dim ensures d in scores { OneOfFive(d); } }
    SubjectiveState(map[], scores)
  }

  /** One iteration: only key `d` of either map is written. */
  function Record(st: SubjectiveState, d: Dim, o: DimOutcome): (r: SubjectiveState)
    ensures r.analysis.Keys == st.analysis.Keys + {d}
    ensures r.analysis[d] == o.analysis
    ensures forall e :: e in st.analysis && e != d ==> r.analysis[e] == st.analysis[e]
    ensures forall e :: e in st.scores ==> e in r.scores
    ensures o.score.Some? ==> d in r.scores && r.scores[d] == o.score.value
    ensures forall e :: e in st.scores && !(e == d && o.score.Some?) ==> r.scores[e] == st.scores[e]
  {
    SubjectiveState(st.analysis[d := o.analysis],
                    if o.score.Some? then st.scores[d := o.score.value] else st.scores)
  }

  /**
   * Lines 282-297 over the dimensions `ds`, in order: each of them ends with its own
   * call's record, and with its own call's score when that call wrote one; every other
   * entry is left as it was.
   */
  function ScoreFrom(st: SubjectiveState, ds: seq<Dim>, call: Dim -> Result<Json, Failure>): (r: SubjectiveState)
    ensures r.analysis.Keys == st.analysis.Keys + (set d | d in ds)
    ensures forall d :: d in st.scores ==> d in r.scores
    ensures forall d :: d in ds ==> r.analysis[d] == ScoreOne(call(d)).analysis
    ensures forall d :: d in ds && ScoreOne(call(d)).score.Some? ==>
      d in r.scores && r.scores[d] == ScoreOne(call(d)).score.value
    ensures forall d :: d in st.analysis && d !in ds ==> r.analysis[d] == st.analysis[d]
    ensures forall d :: d in st.scores && !(d in ds && ScoreOne(call(d)).score.Some?) ==>
      r.scores[d] == st.scores[d]
    decreases |ds|
  {
    if |ds| == 0 then st
    else
      assert (set d | d in ds) == {ds[0]} + (set d | d in ds[1..]);
      assert forall d :: d in ds <==> d == ds[0] || d in ds[1..];
      ScoreFrom(Record(st, ds[0], ScoreOne(call(ds[0]))), ds[1..], call)
  }

  /**
   * Lines 202-297: every scored dimension holds its own call's record and score, and
   * every other dimension keeps score 0 and has no record. One dimension's entries
   * depend on that dimension's call alone.
   */
  function ScoreSubjective(active: seq<Dim>, call: Dim -> Result<Json, Failure>): (st: SubjectiveState)
    ensures Total(st.scores)
    ensures st.analysis.Keys == (set d | d in active)
    ensures forall d :: d in active ==> st.analysis[d] == ScoreOne(call(d)).analysis
    ensures forall d :: d in active ==> st.scores[d] == FinalScore(ScoreOne(call(d)))
    ensures forall d :: d !in active ==> st.scores[d] == JInt(0)
  {
    ScoreFrom(InitialState(), active, call)
  }

  /** Changing the service's behaviour for one dimension leaves every other dimension as it was. */
  lemma FailureIsolated(active: seq<Dim>, call1: Dim -> Result<Json, Failure>, call2: Dim -> Result<Json, Failure>, d: Dim)
    requires call1(d) == call2(d)
    ensures ScoreSubjective(active, call1).scores[d] == ScoreSubjective(active, call2).scores[d]
    ensures d in ScoreSubjective(active, call1).analysis <==> d in ScoreSubjective(active, call2).analysis
    ensures d in ScoreSubjective(active, call1).analysis ==>
      ScoreSubjective(active, call1).analysis[d] == ScoreSubjective(active, call2).analysis[d]
  {
  }

  /**
   * A scored dimension whose reply is an object keeps that object as its record; its
   * score is the reply's `score` as given, or stays 0 when the reply has none.
   */
  lemma ReplyScoreCopied(active: seq<Dim>, call: Dim -> Result<Json, Failure>, d: Dim)
    requires d in active && call(d).Ok? && call(d).value.JObj?
    ensures ScoreSubjective(active, call).analysis[d] == call(d).value
    ensures "score" in call(d).value.fields ==>
      ScoreSubjective(active, call).scores[d] == call(d).value.fields["score"]
    ensures "score" !in call(d).value.fields ==> ScoreSubjective(active, call).scores[d] == JInt(0)
  {
  }

  /** A scored dimension whose call fails ends with score 2 in both maps. */
  lemma FailedCallScoresTwo(active: seq<Dim>, call: Dim -> Result<Json, Failure>, d: Dim)
    requires d in active && call(d).Err?
    ensures ScoreSubjective(active, call).scores[d] == JInt(2)
    ensures ScoreSubjective(active, call).analysis[d].JObj?
    ensures "score" in ScoreSubjective(active, call).analysis[d].fields
    ensures ScoreSubjective(active, call).analysis[d].fields["score"] == JInt(2)
  {
  }

  /** With no subjective answers every subjective score is 0 and nothing is analysed. */
  lemma NoAnswersAllZero(call: Dim -> Result<Json, Failure>)
    ensures ScoreSubjective(ActiveDims([]), call).analysis == map[]
    ensures forall d :: ScoreSubjective(ActiveDims([]), call).scores[d] == JInt(0)
  {
  }
}

=== FILE: text.dfy ===
/**
 * Character classes, the decimal rendering that Python's `str(n)` gives a counter, and the
 * one fact about joining sequences that the other modules share.
 */
module Text {

  /**
   * Python's `\s` in a text pattern (the characters for which `str.isspace()` holds):
   * tab through carriage return, the four information separators, space, next-line,
   * no-break space and the Unicode space separators.
   */
  predicate IsSpace(c: char) {
    || ('\t' <= c <= '\r')
    || ('\U{1C}' <= c <= '\U{1F}')
    || c == ' '
    || c == '\U{85}'
    || c == '\U{A0}'
    || c == '\U{1680}'
    || ('\U{2000}' <= c <= '\U{200A}')
    || c == '\U{2028}'
    || c == '\U{2029}'
    || c == '\U{202F}'
    || c == '\U{205F}'
    || c == '\U{3000}'
  }

  predicate IsDigit(c: char) {
    '0' <= c <= '9'
  }

  predicate AllDigits(s: string) {
    forall i :: 0 <= i < |s| ==> IsDigit(s[i])
  }

  function DigitChar(n: nat): (c: char)
    requires n < 10
    ensures IsDigit(c)
  {
    "0123456789"[n]
  }

  function DigitValue(c: char): nat
    requires IsDigit(c)
  {
    (c as int - '0' as int) as nat
  }

  /** Python's `str(n)` for a natural number: decimal digits, no leading zero. */
  function NatToString(n: nat): (s: string)
    ensures |s| >= 1 && AllDigits(s)
    ensures |s| > 1 ==> s[0] != '0'
  {
    if n < 10 then [DigitChar(n)] else NatToString(n / 10) + [DigitChar(n % 10)]
  }

  /** Reads a string of decimal digits back as a number. */
  function ParseNat(s: string): nat
    requires AllDigits(s)
  {
    if |s| == 0 then 0 else 10 * ParseNat(s[..|s| - 1]) + DigitValue(s[|s| - 1])
  }

  lemma {:induction false} ParseNatToString(n: nat)
    ensures ParseNat(NatToString(n)) == n
  {
    var s := NatToString(n);
    if n < 10 {
      assert DigitValue(DigitChar(n)) == n;
    } else {
      var prefix := NatToString(n / 10);
      assert s[..|s| - 1] == prefix;
      ParseNatToString(n / 10);
      assert DigitValue(DigitChar(n % 10)) == n % 10;
    }
  }

  /** Distinct counters render as distinct texts, so generated default keys never collide. */
  lemma NatToStringInjective(m: nat, n: nat)
    ensures NatToString(m) == NatToString(n) <==> m == n
  {
    if NatToString(m) == NatToString(n) {
      ParseNatToString(m);
      ParseNatToString(n);
    }
  }

  /** Joining sequences is associative. */
  lemma AppendAssoc<T>(x: seq<T>, y: seq<T>, z: seq<T>)
    ensures x + (y + z) == (x + y) + z
  {
  }
}
